=== FILE: README.md ===
# Serial propagation check, modelled in Dafny

`check_serial_propagation.py` is a monitoring plugin that decides whether the
slave name servers of a set of DNS zones have caught up with the master. It
keeps a small history file (an SQLite table of rows
`(time, zone, serial, slave)`). Every run goes through the same steps:

1. **init** seeds the file with one sentinel row per slave and zone, but only if the file does not exist yet.
2. **refresh** appends the master's current serial for every slave and stored zone.
3. **check** compares every slave's live serial with the master's serial as it stood one grace window ago. It then prunes rows older than two windows, keeping the sentinels.
4. **nagios_exit** turns the three message buckets (error, warn, ok) into a status line and an exit code.

The model keeps that structure, one module per concern:

| module | file | models |
|---|---|---|
| `Wrappers` | wrappers.dfy | `Option` |
| `Text` | text.dfy | `str.split` on one character, `str.join`, `%i` rendering, the `zone[0:4]` prefix test |
| `History` | history.dfy | the `zones` table as a sequence of rows: `SELECT DISTINCT zone`, the reference lookup, the prune `DELETE`, the seeding invariant |
| `Fetcher` | fetcher.dfy | `get_serial`, with the DNS exchange as an oracle, and the result buckets |
| `Stages` | stages.dfy | `init`, `refresh` and `check` as pure functions over the store and the buckets |
| `Nagios` | nagios.dfy | `nagios_exit`: the exit code and the printed line |
| `Plugin` | plugin.dfy | `main`: choosing the history file, the run as a whole, and properties across consecutive runs |

The store is a `seq<Row>` in insertion order, and the file system is a `map` from
path to store. The DNS exchange is a function `Transport(server, zone)`
returning the reply's response code and answer serials. The clock is a
`now: Clock` parameter of the run, a number greater than the seed time `0`, so
every row a run writes is later than every seed row. The seed time marks the
sentinel rows. As the integer 0 does in SQLite, a sentinel row counts as earlier
than every cutoff and is never pruned. Serials are `nat`s below 2^32, as in
SOA records. Names are Python 2 byte strings; a `char` of the model stands for
one byte, so `|zone|` counts bytes as `len(zone)` does.

A run that ends in an uncaught Python exception is the `Aborted` outcome. It
carries the files as the exception leaves them, and its exit status is 1, the
status Python exits with after an uncaught exception; a monitor reads that as
WARNING. The model has two such cases:

- a `-z` directory path with no `/`, or an empty `-z`;
- a reference lookup that finds no row.

The source can also end in an uncaught exception in other ways that the model
does not have: the date-range overflows of a huge `-t`, a first answer record
that is not an SOA record, a `-z` directory that cannot be listed, a history
file that SQLite cannot open, and failures inside the DNS library. Each is
listed under "Left out"; in the source each exits 1.

## Model

| member | source | states |
|---|---|---|
| Fetcher.GetSerial | check_serial_propagation.py:22-30 | a usable reply (NOERROR with a non-empty answer) yields its first serial and leaves the buckets alone; anything else yields 0 and appends exactly one "`zone` no response from `server`" error; a non-zero result is always a served serial |
| History.DistinctZones | check_serial_propagation.py:44-49 | the listed zones are exactly the zones with at least one stored row |
| History.DistinctZonesUnique | check_serial_propagation.py:48 | `SELECT DISTINCT` lists no zone twice |
| History.LatestBefore | check_serial_propagation.py:120-125 | the reference lookup returns a stored row for the pair with time before the cutoff and of the greatest such time, and finds nothing exactly when no row is eligible |
| History.SeedAnswersLookup | check_serial_propagation.py:67 | a seed row for a pair makes its reference lookup succeed whatever the cutoff, since the seed time sorts before every timestamp |
| History.Prune | check_serial_propagation.py:136-137 | the prune only deletes, so the store never grows (which rows survive is stated by the next two rows) |
| History.PruneCounts | check_serial_propagation.py:136-137 | the prune keeps every copy of a sentinel or recent row and no copy of an older one |
| History.PruneExact | check_serial_propagation.py:136-137 | a row survives pruning exactly when it was stored and is a sentinel or not older than the bound |
| History.PruneIdempotent | check_serial_propagation.py:136-137 | pruning again with the same bound removes nothing more |
| History.PruneKeepsLookup | check_serial_propagation.py:135-137 | pruning does not change a lookup whose answer row it keeps |
| History.PruneSeeded | check_serial_propagation.py:136-137 | pruning never removes a seed row, so a seeded store stays seeded |
| History.SeededMeans | check_serial_propagation.py:61-67 | the seeding invariant, row by row: every stored zone has a seed row for every slave |
| Stages.TrackedZones | check_serial_propagation.py:62-66 | the seeding filter keeps at most one name per configured name |
| Stages.TrackedZonesAppend | check_serial_propagation.py:61-67 | the filter works entry by entry and in order: a list's kept names are its parts' kept names concatenated, and one entry gives its stored name or nothing, so a zone configured twice is seeded twice |
| Stages.TrackedZonesMeans | check_serial_propagation.py:62-66 | a name is seeded exactly when it is a configured zone of length at least 2 without the `tmp-` prefix, with `root` stored as `.` |
| Stages.InitCounts | check_serial_propagation.py:55-67 | a new store holds each row as often as seeding writes it: a seed row once per occurrence of its slave times once per occurrence of its zone, and no other row |
| Stages.InitRows | check_serial_propagation.py:61-67 | a row is in a new store exactly when it is a seed row for a configured slave and a kept zone |
| Stages.InitFiltersZones | check_serial_propagation.py:62-66 | a new store never holds a short name, a `tmp-` name or `root`, and every zone in it comes from a configured name |
| Stages.InitAliasesRoot | check_serial_propagation.py:65-67 | a configured `root` seeds the zone `.` for every slave |
| Stages.InitSeedsEachPairOnce | check_serial_propagation.py:61-67 | with distinct slaves and distinct kept zones every seed row is written exactly once |
| Stages.Init | check_serial_propagation.py:55 | an existing store is left unchanged; a new one holds slaves × kept zones rows |
| Stages.RefreshZone | check_serial_propagation.py:75-78 | one zone of refresh: a non-zero master serial is appended for the slave at `now`, otherwise the store is unchanged; the only message is the master's no-response |
| Stages.Refresh | check_serial_propagation.py:69-78 | refresh appends exactly the observations, slave by slave and zone by zone in stored-zone order, and adds the master's no-response messages once per slave |
| Stages.RefreshAppendsObservations | check_serial_propagation.py:73-78 | existing rows stay; a row is new exactly when it is stamped `now`, for a configured slave and a stored zone, and holds the master's non-zero serial |
| Stages.RefreshKeepsZones | check_serial_propagation.py:74 | refresh never introduces a zone, so check sees the zones refresh saw |
| Stages.ObservationsExact | check_serial_propagation.py:73-78 | the slave-by-slave reference definition of what refresh appends holds exactly the rows meant for it |
| Stages.JudgePair | check_serial_propagation.py:126-134 | a failed slave fetch adds only its no-response error; a served 0 adds nothing; a non-zero serial below the reference adds one "behind" error, and any other adds one ok message |
| Stages.CheckZones | check_serial_propagation.py:119-134 | one slave's pass appends that slave's per-zone errors and ok messages in zone order |
| Stages.CheckSlaves | check_serial_propagation.py:118-134 | the whole pass appends every slave's messages, slave by slave |
| Stages.Check | check_serial_propagation.py:113-137 | every pair is judged on the store as refresh left it, and the store is then pruned at two windows |
| Stages.CheckErrorsEmpty | check_serial_propagation.py:126-131 | check adds no error exactly when every pair is in tolerance: the slave answered and did not serve a non-zero serial older than its reference |
| Stages.ConvergedMeans | check_serial_propagation.py:118-131 | the recursive "in tolerance" predicate means: for every configured slave and every listed zone |
| Nagios.NagiosExit | check_serial_propagation.py:89-111 | CRITICAL (2) exactly when there is an error, WARNING (1) exactly when there is none but a warning, OK (0) exactly when both are empty |
| Nagios.Line | check_serial_propagation.py:92-110 | every status line starts with the "LABEL: count zones" header for its code and message count |
| Nagios.NagiosLine | check_serial_propagation.py:92-110 | the line starts with "LABEL: count zones" for the reported bucket, and lists its messages joined by ", " exactly when verbosity is at least 1 (ERROR, WARN) or 2 (OK) |
| Nagios.CountReadsBack | check_serial_propagation.py:93-110 | the count printed in the line reads back as the size of the reported bucket |
| Nagios.VerdictOfErrors | check_serial_propagation.py:91-111 | with no warnings the verdict is OK exactly when both the earlier and the later errors are empty |
| Text.Join | check_serial_propagation.py:94 | `sep.join(parts)`: empty for no parts, starting with the first part, and with the separator right after it when there are two or more |
| Text.NatToString | check_serial_propagation.py:130-134 | `%i` renders a number as a non-empty run of decimal digits, with a leading `0` only for zero |
| Text.Split | check_serial_propagation.py:172 | `str.split` on one character gives one more piece than there are separators, and no piece contains one |
| Text.JoinSplit | check_serial_propagation.py:172 | joining the split pieces with the separator restores the text |
| Text.SplitJoin | check_serial_propagation.py:172 | splitting a join of separator-free pieces restores the pieces |
| Text.ParseNatToString | check_serial_propagation.py:130-134 | the `%i` rendering of a number reads back as that number |
| Text.NatToStringInjective | check_serial_propagation.py:130-134 | distinct serials render differently |
| Plugin.LastSlash | check_serial_propagation.py:174 | the position found is a `/` with none after it, and there is none exactly when the path has no `/` |
| Plugin.DirLabel | check_serial_propagation.py:174 | `rsplit('/', 2)[1]`: none without a `/`, the second piece with one `/`, and the next-to-last piece with more |
| Plugin.DbFile | check_serial_propagation.py:169-175 | `-Z` uses the `-d` path as given; `-z` names the file `database + "." + DirLabel(path)`, and there is no file for an empty `-z` or a path without `/` |
| Plugin.ConfiguredZones | check_serial_propagation.py:171-175 | with `-z` the zones are the directory's entries as listed; with `-Z` they are the comma-cut pieces (one more than the commas, none containing a comma) that join back with "," into the argument |
| Plugin.PlanOf | check_serial_propagation.py:163-175 | a run has a plan exactly when the history file is named; the plan carries that file, the comma-split slave list, the configured master, the configured zone names, the window and the verbosity |
| Plugin.Run | check_serial_propagation.py:161-180 | a run without a history file aborts and touches nothing; otherwise it is the execution of the command line's plan and writes only that file. A run exits 1, which the monitor reads as WARNING, exactly when it aborts with an exception; a finished run is OK or CRITICAL |
| Plugin.Execute | check_serial_propagation.py:177-180 | init, refresh, check and exit write only the history file, and exit 1 (WARNING to the monitor) exactly when the run aborts with an exception |
| Plugin.Initialized | check_serial_propagation.py:55-67 | init hands on the stored rows of an existing history file unchanged, and the seeds of the configured zones and slaves for a new one |
| Plugin.Refreshed | check_serial_propagation.py:177-178 | after init and refresh the store is init's rows followed by refresh's observations, and the only messages are the master's no-responses, once per slave |
| Plugin.ExecuteAborts | check_serial_propagation.py:120-125 | a run aborts exactly when some (slave, zone) pair of the refreshed store has no row before the cutoff, and the file then holds the rows init and refresh committed |
| Plugin.Conclude | check_serial_propagation.py:179-180 | the run aborts exactly when some pair has no reference row, and keeps the refreshed rows then |
| Plugin.ConcludeStore | check_serial_propagation.py:135-137 | the file ends up holding the refreshed rows, pruned when check finishes |
| Plugin.ConcludeVerdict | check_serial_propagation.py:126-137 | after check the verdict is OK exactly when no error was reported before or during check and every pair is in tolerance, and CRITICAL otherwise |
| Plugin.CheckVerdict | check_serial_propagation.py:118-134 | with no warnings, the verdict over the buckets check fills is OK exactly when nothing failed before check and every pair is in tolerance, and CRITICAL otherwise |
| Plugin.FinishedStore | check_serial_propagation.py:177-180 | a run that finds every reference row finishes, and leaves the refreshed rows pruned at two windows |
| Plugin.RunVerdict | check_serial_propagation.py:177-180 | a run that finds every reference row finishes CRITICAL exactly when the master failed to answer for a stored zone (when there are slaves) or some pair is out of tolerance, and OK otherwise |
| Plugin.InitSeeded | check_serial_propagation.py:55-67 | a new store is seeded |
| Plugin.RefreshSeeded | check_serial_propagation.py:69-78 | refresh keeps a store seeded |
| Plugin.SeededReferenced | check_serial_propagation.py:120-125 | in a seeded store every reference lookup succeeds |
| Plugin.SeededRunFinishes | check_serial_propagation.py:177-180 | a run on a new file, or on a seeded file with the same slaves, never aborts at the reference lookup |
| Plugin.ConfiguredRunFinishes | check_serial_propagation.py:161-180 | a command line whose history file is new, or seeded for its slaves, runs to a verdict and leaves the file seeded |
| Plugin.ConfiguredRunVerdict | check_serial_propagation.py:161-180 | for a command line whose refreshed store has every reference row, the run finishes OK exactly when the configured master answered for every stored zone (or there are no slaves) and every pair is in tolerance, CRITICAL otherwise |
| Plugin.RunKeepsSeeded | check_serial_propagation.py:177-180 | such a run leaves the file seeded for the next run |

## Left out

- SQLite, the connection-per-call `cursor` helper and its commits: the store is a value. A run that aborts during check keeps what refresh committed and loses the uncommitted prune. This is the only trace of transactions left.
- The DNS wire protocol, the message construction and `dns.query.udp`: the reply is an oracle value. The source sets no timeout, so a server that never answers hangs the plugin; the model has no hang. Failures inside `dns.query.udp` (:25), such as a socket error, are not modelled; in the source they end the run with an uncaught exception and exit 1.
- A reply whose first answer record is not an SOA record has no `serial`, and :27 raises AttributeError, which exits 1. The model's reply carries serials only, so this exit is not modelled.
- `os.listdir` at :175 raises OSError for a `-z` directory that is missing or unreadable, and `sqlite3.connect` at :35 raises `sqlite3.OperationalError` when the history path cannot be opened (for example when the default `/var/db/nagios` directory is missing). Both end the run with exit 1. The model's listing is a given value and its file system always accepts a write, so neither exit is modelled.
- `datetime.now()` is called once per inserted row (:78), once per lookup (:123) and once for the prune bound (:137). The model uses a single `now` for the whole run. This matters under `-t 0`: in the source, the later clock readings of check make the rows this run's refresh wrote the reference, and the prune then deletes them. In the model those rows are stamped exactly at the cutoff, so they are neither the reference (the lookup is strictly before the cutoff) nor pruned. Verdicts and stores under a zero window therefore differ from the source's.
- Timestamps are plain numbers. In SQLite the seed time, the integer 0, sorts before every timestamp text, so a seed row is before every cutoff and every prune bound. The lookup (:120-122) therefore always finds it eligible, and the DELETE (:136) would match it too, but spares it through its `time <> 0` test. The model states the outcome directly: a seed row is eligible for every lookup and spared by every prune, whatever the numbers. The clock type keeps every run's time above 0, so no row a run writes is a sentinel.
- Stages.RefreshZone: refresh queries the master twice and stores the second answer. The oracle is deterministic, so the second query returns the first answer and adds no second message. A master that answers the first query and fails the second is not modelled.
- The order of `SELECT DISTINCT zone` is unspecified in SQL. The model lists zones in order of first appearance; only the order of the messages depends on it.
- History.LatestBefore: when several rows share the greatest eligible time, SQL may return any of them. The model returns the earliest stored.
- `dump` and the `-D` option: `dump` is never called from `main`, and it only prints.
- Argument parsing, logging, `print` and `sys.exit`: the parsed command line is the `Config` value, and the printed line and exit code form the `Verdict`. `-v` absent (None) is verbosity 0, which is how Python 2 compares None with a number.
- `os.listdir` is the `listing` carried by the `-z` option. `os.path.exists` is whether the path is a key of the file map.
- `timedelta(minutes=...)`: the grace window is an integer in the model's time unit. The source's type is also an integer, and it may be negative.
- The ranges of `datetime` and `timedelta` are not modelled. `-t` becomes a `timedelta` at check_serial_propagation.py:170, and the cutoffs `now - delta` (:123) and `now - delta * 2` (:137) must stay within years 1 to 9999. A positive window from roughly 5·10^8 minutes (about a thousand years; the exact bound depends on the date) or a negative one beyond roughly -2·10^9 minutes raises OverflowError at one of those lines. A window beyond about 1.4·10^12 minutes already fails at :170. In the source such a run ends in an uncaught exception, exits 1 and does not commit the prune. The model's window is an unbounded integer, and for these values the model's run finishes OK or CRITICAL.

=== FILE: fetcher.dfy ===
/**
 * The serial fetcher and the result buckets it reports failures into.
 * The DNS transport is an oracle: `Transport(server, zone)` is the reply the
 * server gives to a SOA query for the zone.
 */
module Fetcher {
  import opened Wrappers
  import opened History

  /** The DNS response code for success. */
  const NoError: nat := 0

  /**
   * What the plugin reads of a reply: its response code and the serials of
   * the answer section, in order (the first is read as the SOA serial).
   */
  datatype Reply = Reply(rcode: nat, answer: seq<Serial>)

  /** The DNS exchange: the reply `server` gives to a SOA query for `zone`. */
  type Transport = (string, string) -> Reply

  /** The three message buckets, each in the order its messages were produced. */
  datatype Results = Results(error: seq<string>, warn: seq<string>, ok: seq<string>)

  const NoResults: Results := Results([], [], [])

  /** The serial a reply yields: the first answer's, when there is an answer and the code is NOERROR. */
  function Usable(reply: Reply): Option<Serial> {
    if |reply.answer| > 0 && reply.rcode == NoError then Some(reply.answer[0]) else None
  }

  /** The serial `server` serves for `zone`, or None when its reply is not usable. */
  function Query(fetch: Transport, server: string, zone: string): Option<Serial> {
    Usable(fetch(server, zone))
  }

  /** The message a failed fetch leaves in the error bucket. */
  function NoResponse(zone: string, server: string): string {
    zone + " no response from " + server
  }

  /**
   * `get_serial`: the served serial on success; on failure one
   * no-response message in the error bucket and 0, a value the caller cannot
   * tell apart from a served serial of 0 except through the bucket.
   */
  function GetSerial(server: string, zone: string, fetch: Transport, results: Results): (r: (Serial, Results))
    ensures r.1.warn == results.warn && r.1.ok == results.ok
    ensures Query(fetch, server, zone).Some? <==> r.1.error == results.error
    ensures Query(fetch, server, zone).None? <==> r.1.error == results.error + [NoResponse(zone, server)]
    ensures Query(fetch, server, zone).Some? ==> r.0 == Query(fetch, server, zone).value
    ensures r.0 != 0 ==> Query(fetch, server, zone) == Some(r.0)
  {
    match Query(fetch, server, zone)
    case Some(serial) => (serial, results)
    case None => (0, results.(error := results.error + [NoResponse(zone, server)]))
  }
}

=== FILE: history.dfy ===
/**
 * The serial history store: the `zones` table of the plugin's SQLite file,
 * held as a sequence of rows in insertion order. Times are abstract
 * non-negative numbers in the unit of the grace window. Seed rows carry the
 * integer 0 where observations carry a timestamp, and SQLite orders that
 * integer before every timestamp: time 0 is the sentinel, earlier than every
 * cutoff and every real observation.
 */
module History {
  import opened Wrappers

  /** SOA serials are unsigned 32-bit numbers. */
  const SerialSpace: nat := 0x1_0000_0000
  type Serial = n: nat | n < SerialSpace

  /** The time written into seed rows. */
  const Sentinel: nat := 0

  /** A reading of the clock: always later than the seed time, so an observation is never a sentinel. */
  type Clock = n: nat | n > Sentinel witness 1

  /** One row `(time, zone, serial, slave)`: the master's serial for `zone`, observed at `time`, tracked for `slave`. */
  datatype Row = Row(time: nat, zone: string, serial: Serial, slave: string)

  type Store = seq<Row>

  predicate IsSentinel(row: Row) {
    row.time == Sentinel
  }

  /** The zones the store holds at least one row for. */
  function StoredZones(store: Store): set<string> {
    set row | row in store :: row.zone
  }

  /** The zone listing of init and check: every stored zone once, in order of first appearance. */
  function DistinctZones(store: Store): (zones: seq<string>)
    ensures forall z :: z in zones <==> z in StoredZones(store)
  {
    if |store| == 0 then []
    else
      var earlier := DistinctZones(store[..|store| - 1]);
      var last := store[|store| - 1];
      assert store == store[..|store| - 1] + [last];
      if last.zone in earlier then earlier else earlier + [last.zone]
  }

  /** No zone is listed twice. */
  lemma {:induction false} DistinctZonesUnique(store: Store)
    ensures forall i, j :: 0 <= i < j < |DistinctZones(store)| ==> DistinctZones(store)[i] != DistinctZones(store)[j]
  {
    if |store| > 0 {
      var earlier := DistinctZones(store[..|store| - 1]);
      var last := store[|store| - 1];
      DistinctZonesUnique(store[..|store| - 1]);
      assert store == store[..|store| - 1] + [last];
      if last.zone !in earlier {
        var zones := earlier + [last.zone];
        assert DistinctZones(store) == zones;
        forall i, j | 0 <= i < j < |zones|
          ensures zones[i] != zones[j]
        {
          assert zones[i] == earlier[i];
          if j < |earlier| {
            assert zones[j] == earlier[j];
            assert earlier[i] != earlier[j];
          } else {
            assert zones[j] == last.zone;
            assert earlier[i] in earlier;
          }
        }
      }
    }
  }

  /**
   * A row that the reference lookup for `(zone, slave)` with this cutoff may
   * return: one for the pair stamped strictly before the cutoff, which a seed
   * row always is.
   */
  predicate Eligible(row: Row, zone: string, slave: string, cutoff: int) {
    row.zone == zone && row.slave == slave && (IsSentinel(row) || row.time < cutoff)
  }

  /** One step of the lookup scan: the better of the answer so far and the next row. */
  function LaterOf(earlier: Option<Row>, next: Row, zone: string, slave: string, cutoff: int): Option<Row> {
    if !Eligible(next, zone, slave, cutoff) then earlier
    else if earlier.Some? && next.time <= earlier.value.time then earlier
    else Some(next)
  }

  /**
   * The reference lookup: the latest row for the pair strictly before the
   * cutoff (the whole row, not only its serial), or None when there is none.
   * SQL leaves the choice among rows of equal time open; this model takes the
   * earliest stored of them.
   */
  function LatestBefore(store: Store, zone: string, slave: string, cutoff: int): (r: Option<Row>)
    ensures r.None? <==> forall i :: 0 <= i < |store| ==> !Eligible(store[i], zone, slave, cutoff)
    ensures r.Some? ==> r.value in store && Eligible(r.value, zone, slave, cutoff)
    ensures r.Some? ==>
      forall i :: 0 <= i < |store| && Eligible(store[i], zone, slave, cutoff) ==> store[i].time <= r.value.time
  {
    if |store| == 0 then None
    else
      assert forall i :: 0 <= i < |store| - 1 ==> store[i] == store[..|store| - 1][i];
      LaterOf(LatestBefore(store[..|store| - 1], zone, slave, cutoff), store[|store| - 1], zone, slave, cutoff)
  }

  lemma LatestBeforeAppend(store: Store, next: Row, zone: string, slave: string, cutoff: int)
    ensures LatestBefore(store + [next], zone, slave, cutoff)
         == LaterOf(LatestBefore(store, zone, slave, cutoff), next, zone, slave, cutoff)
  {
    assert (store + [next])[..|store|] == store;
  }

  /** A seed row for the pair makes the lookup succeed whatever the cutoff. */
  lemma SeedAnswersLookup(store: Store, zone: string, slave: string, cutoff: int)
    requires exists row :: row in store && IsSentinel(row) && row.zone == zone && row.slave == slave
    ensures LatestBefore(store, zone, slave, cutoff).Some?
  {
    var row :| row in store && IsSentinel(row) && row.zone == zone && row.slave == slave;
    var i :| 0 <= i < |store| && store[i] == row;
    assert Eligible(store[i], zone, slave, cutoff);
  }

  /** A row survives pruning: it is a sentinel, or not older than the bound. */
  predicate Retained(row: Row, bound: int) {
    IsSentinel(row) || row.time >= bound
  }

  /**
   * The clean-up after check: every observation stamped before `bound` is
   * deleted, seed rows are spared, and the rest keep their order.
   */
  function Prune(store: Store, bound: int): (r: Store)
    ensures |r| <= |store|
  {
    if |store| == 0 then []
    else
      var last := store[|store| - 1];
      assert store == store[..|store| - 1] + [last];
      Prune(store[..|store| - 1], bound) + (if Retained(last, bound) then [last] else [])
  }

  /** Pruning keeps every copy of a retained row and no copy of any other. */
  lemma {:induction false} PruneCounts(store: Store, bound: int, row: Row)
    ensures multiset(Prune(store, bound))[row] == if Retained(row, bound) then multiset(store)[row] else 0
  {
    if |store| > 0 {
      var init := store[..|store| - 1];
      var last := store[|store| - 1];
      assert store == init + [last];
      PruneCounts(init, bound, row);
    }
  }

  /** After pruning no stale row remains, and every sentinel or recent row is still there. */
  lemma {:induction false} PruneExact(store: Store, bound: int, row: Row)
    ensures row in Prune(store, bound) <==> row in store && Retained(row, bound)
  {
    PruneCounts(store, bound, row);
    assert row in Prune(store, bound) <==> multiset(Prune(store, bound))[row] > 0;
  }

  /** Pruning twice with the same bound removes nothing more. */
  lemma {:induction false} PruneIdempotent(store: Store, bound: int)
    ensures Prune(Prune(store, bound), bound) == Prune(store, bound)
  {
    if |store| > 0 {
      var init := store[..|store| - 1];
      var last := store[|store| - 1];
      PruneIdempotent(init, bound);
      var p := Prune(init, bound);
      if Retained(last, bound) {
        assert Prune(store, bound) == p + [last];
        assert (p + [last])[..|p + [last]| - 1] == p;
      } else {
        assert Prune(store, bound) == p;
      }
    }
  }

  /** Pruning a store with one more row prunes the store, then keeps or drops that row. */
  lemma PruneAppend(store: Store, next: Row, bound: int)
    ensures Prune(store + [next], bound) == Prune(store, bound) + (if Retained(next, bound) then [next] else [])
  {
    assert (store + [next])[..|store|] == store;
  }

  /** Every eligible row of a pruned store is eligible in the original, so it is no later than the original's answer. */
  lemma PrunedLookupNoLater(store: Store, bound: int, zone: string, slave: string, cutoff: int)
    ensures var q := LatestBefore(Prune(store, bound), zone, slave, cutoff);
      q.Some? ==> (LatestBefore(store, zone, slave, cutoff).Some? &&
                   q.value.time <= LatestBefore(store, zone, slave, cutoff).value.time)
  {
    var q := LatestBefore(Prune(store, bound), zone, slave, cutoff);
    if q.Some? {
      PruneExact(store, bound, q.value);
      var k :| 0 <= k < |store| && store[k] == q.value;
      assert Eligible(store[k], zone, slave, cutoff);
    }
  }

  /**
   * Pruning keeps the answer of every later lookup whose answer row it keeps:
   * when the row a lookup returns is a sentinel or not older than the bound,
   * the same lookup on the pruned store returns the same row.
   */
  lemma {:induction false} PruneKeepsLookup(store: Store, bound: int, zone: string, slave: string, cutoff: int)
    requires LatestBefore(store, zone, slave, cutoff).Some?
    requires Retained(LatestBefore(store, zone, slave, cutoff).value, bound)
    ensures LatestBefore(Prune(store, bound), zone, slave, cutoff) == LatestBefore(store, zone, slave, cutoff)
    decreases |store|, 1
  {
    var init := store[..|store| - 1];
    var last := store[|store| - 1];
    assert store == init + [last];
    if LatestBefore(store, zone, slave, cutoff) == LatestBefore(init, zone, slave, cutoff) {
      KeepLookupEarlier(init, last, bound, zone, slave, cutoff);
    } else {
      KeepLookupLast(init, last, bound, zone, slave, cutoff);
    }
  }

  lemma {:induction false} KeepLookupEarlier(init: Store, last: Row, bound: int, zone: string, slave: string, cutoff: int)
    requires LatestBefore(init + [last], zone, slave, cutoff) == LatestBefore(init, zone, slave, cutoff)
    requires LatestBefore(init, zone, slave, cutoff).Some?
    requires Retained(LatestBefore(init, zone, slave, cutoff).value, bound)
    ensures LatestBefore(Prune(init + [last], bound), zone, slave, cutoff) == LatestBefore(init, zone, slave, cutoff)
    decreases |init| + 1, 0
  {
    var e := LatestBefore(init, zone, slave, cutoff);
    PruneKeepsLookup(init, bound, zone, slave, cutoff);
    var p := Prune(init, bound);
    assert LatestBefore(p, zone, slave, cutoff) == e;
    LatestBeforeAppend(init, last, zone, slave, cutoff);
    assert LaterOf(e, last, zone, slave, cutoff) == e;
    PruneAppend(init, last, bound);
    if Retained(last, bound) {
      assert Prune(init + [last], bound) == p + [last];
      LatestBeforeAppend(p, last, zone, slave, cutoff);
    } else {
      assert Prune(init + [last], bound) == p;
    }
  }

  lemma KeepLookupLast(init: Store, last: Row, bound: int, zone: string, slave: string, cutoff: int)
    requires LatestBefore(init + [last], zone, slave, cutoff) != LatestBefore(init, zone, slave, cutoff)
    requires LatestBefore(init + [last], zone, slave, cutoff).Some?
    requires Retained(LatestBefore(init + [last], zone, slave, cutoff).value, bound)
    ensures LatestBefore(Prune(init + [last], bound), zone, slave, cutoff) == LatestBefore(init + [last], zone, slave, cutoff)
  {
    LatestBeforeAppend(init, last, zone, slave, cutoff);
    PruneAppend(init, last, bound);
    var p := Prune(init, bound);
    LatestBeforeAppend(p, last, zone, slave, cutoff);
    PrunedLookupNoLater(init, bound, zone, slave, cutoff);
  }

  /** Every zone of `rows` has a seed row in `store` for every slave, checked row by row. */
  predicate SeedsCover(store: Store, rows: Store, slaves: seq<string>)
    decreases |rows|
  {
    |rows| == 0 ||
    (SeedsCover(store, rows[..|rows| - 1], slaves) &&
     forall slave :: slave in slaves ==> Row(Sentinel, rows[|rows| - 1].zone, 0, slave) in store)
  }

  /** Every stored zone has a seed row for every slave. */
  predicate Seeded(store: Store, slaves: seq<string>) {
    SeedsCover(store, store, slaves)
  }

  lemma {:induction false} SeedsCoverMeans(store: Store, rows: Store, slaves: seq<string>)
    ensures SeedsCover(store, rows, slaves) <==>
      forall row, slave :: row in rows && slave in slaves ==> Row(Sentinel, row.zone, 0, slave) in store
  {
    if |rows| > 0 {
      var init := rows[..|rows| - 1];
      assert rows == init + [rows[|rows| - 1]];
      SeedsCoverMeans(store, init, slaves);
    }
  }

  /** Seeded, stated row by row. */
  lemma SeededMeans(store: Store, slaves: seq<string>)
    ensures Seeded(store, slaves) <==>
      forall row, slave :: row in store && slave in slaves ==> Row(Sentinel, row.zone, 0, slave) in store
  {
    SeedsCoverMeans(store, store, slaves);
  }

  lemma PruneSeeded(store: Store, slaves: seq<string>, bound: int)
    requires Seeded(store, slaves)
    ensures Seeded(Prune(store, bound), slaves)
  {
    SeededMeans(store, slaves);
    forall row, slave | row in Prune(store, bound) && slave in slaves
      ensures Row(Sentinel, row.zone, 0, slave) in Prune(store, bound)
    {
      PruneExact(store, bound, row);
      PruneExact(store, bound, Row(Sentinel, row.zone, 0, slave));
    }
    SeededMeans(Prune(store, bound), slaves);
  }
}

=== FILE: nagios.dfy ===
/**
 * The monitoring-plugin exit contract: the three result buckets become one
 * status line and an exit code, CRITICAL 2, WARNING 1, OK 0.
 */
module Nagios {
  import opened Text
  import opened Fetcher

  const OkCode: nat := 0
  const WarningCode: nat := 1
  const CriticalCode: nat := 2

  /** The exit code and the line printed before exiting. */
  datatype Verdict = Verdict(code: nat, text: string)

  function Label(code: nat): string {
    if code == CriticalCode then "ERROR" else if code == WarningCode then "WARN" else "OK"
  }

  /** The bucket a verdict reports on. */
  function Reported(results: Results, code: nat): seq<string> {
    if code == CriticalCode then results.error else if code == WarningCode then results.warn else results.ok
  }

  /**
   * Whether the message list is printed: from one `-v` for ERROR and WARN,
   * from two for OK. No `-v` at all is verbosity 0.
   */
  predicate ShowsDetail(code: nat, verbose: nat) {
    if code == OkCode then verbose > 1 else verbose > 0
  }

  /** `"<LABEL>: <count> zones"`. */
  function Header(code: nat, count: nat): string {
    Label(code) + ": " + NatToString(count) + " zones"
  }

  /**
   * `nagios_exit`: any error gives CRITICAL whatever the other buckets hold;
   * otherwise any warning gives WARNING; otherwise OK.
   */
  function NagiosExit(results: Results, verbose: nat): (v: Verdict)
    ensures v.code == CriticalCode <==> |results.error| > 0
    ensures v.code == WarningCode <==> |results.error| == 0 && |results.warn| > 0
    ensures v.code == OkCode <==> |results.error| == 0 && |results.warn| == 0
  {
    if |results.error| > 0 then
      Verdict(CriticalCode, Line(CriticalCode, results.error, verbose))
    else if |results.warn| > 0 then
      Verdict(WarningCode, Line(WarningCode, results.warn, verbose))
    else
      Verdict(OkCode, Line(OkCode, results.ok, verbose))
  }

  /**
   * The status line names the verdict and counts the reported bucket, and
   * lists its messages, joined by ", ", exactly when the verbosity asks for
   * detail.
   */
  lemma NagiosLine(results: Results, verbose: nat)
    ensures var v := NagiosExit(results, verbose);
      var header := Header(v.code, |Reported(results, v.code)|);
      && StartsWith(v.text, header)
      && (ShowsDetail(v.code, verbose) ==> v.text == header + ": " + Join(Reported(results, v.code), ", "))
      && (!ShowsDetail(v.code, verbose) ==> v.text == header)
  {
  }

  /** With no warnings, the verdict is OK exactly when both parts of the error bucket are empty, and CRITICAL otherwise. */
  lemma VerdictOfErrors(results: Results, prior: seq<string>, extra: seq<string>, verbose: nat)
    requires results.error == prior + extra && results.warn == []
    ensures NagiosExit(results, verbose).code == OkCode <==> prior == [] && extra == []
    ensures NagiosExit(results, verbose).code == CriticalCode <==> !(prior == [] && extra == [])
  {
    assert |results.error| == |prior| + |extra|;
  }

  function Line(code: nat, messages: seq<string>, verbose: nat): (line: string)
    ensures StartsWith(line, Header(code, |messages|))
  {
    var header := Header(code, |messages|);
    if ShowsDetail(code, verbose) then header + ": " + Join(messages, ", ") else header
  }

  /** The count in a header sits right after the label and its colon. */
  lemma HeaderCount(code: nat, n: nat)
    ensures var start := |Label(code)| + 2;
      && start + |NatToString(n)| <= |Header(code, n)|
      && Header(code, n)[start..start + |NatToString(n)|] == NatToString(n)
  {
    var prefix := Label(code) + ": ";
    var digits := NatToString(n);
    assert Header(code, n) == prefix + digits + " zones";
    assert (prefix + digits + " zones")[|prefix|..|prefix| + |digits|] == digits;
  }

  /** The count in the line reads back as the size of the reported bucket. */
  lemma CountReadsBack(results: Results, verbose: nat)
    ensures var v := NagiosExit(results, verbose);
      var start := |Label(v.code)| + 2;
      var digits := NatToString(|Reported(results, v.code)|);
      && start + |digits| <= |v.text|
      && ParseDecimal(v.text[start..start + |digits|]) == |Reported(results, v.code)|
  {
    var v := NagiosExit(results, verbose);
    NagiosLine(results, verbose);
    var n := |Reported(results, v.code)|;
    var h := Header(v.code, n);
    var start := |Label(v.code)| + 2;
    var digits := NatToString(n);
    HeaderCount(v.code, n);
    assert v.text[..|h|] == h;
    SliceOfPrefix(v.text, |h|, start, start + |digits|);
    ParseNatToString(n);
  }

  /** A slice inside a prefix is the same slice of the whole. */
  lemma SliceOfPrefix(s: string, n: nat, i: nat, j: nat)
    requires i <= j <= n <= |s|
    ensures s[i..j] == s[..n][i..j]
  {
    assert forall k :: 0 <= k < j - i ==> s[i..j][k] == s[..n][i..j][k];
  }
}

=== FILE: plugin.dfy ===
/**
 * One invocation of the plugin: choose the history file, seed it if it is
 * new, refresh, check, and map the buckets to a verdict. The file system is
 * a map from path to stored rows; the directory listing of a zone directory
 * is given in the configuration.
 */
module Plugin {
  import opened Wrappers
  import opened Text
  import opened History
  import opened Fetcher
  import opened Stages
  import opened Nagios

  /** Where the zone names come from: `-Z a,b,c`, or `-z <dir>` with that directory's entries. */
  datatype ZoneSource = ZoneList(names: string) | ZoneDir(path: string, listing: seq<string>)

  /** The command line, after parsing: master, comma-separated slaves, zones, store path, window, verbosity. */
  datatype Config = Config(
    master: string,
    slaves: string,
    source: ZoneSource,
    database: string,
    delta: int,
    verbose: nat)

  /** How a run ends: with a verdict, or with an uncaught exception and no verdict. */
  datatype Outcome =
    | Aborted(files: map<string, Store>)
    | Finished(files: map<string, Store>, verdict: Verdict)

  /** The status Python exits with after an uncaught exception. */
  const ExceptionStatus: nat := 1

  /**
   * The exit status the monitoring system reads: the verdict's code, or the
   * exception status, which it reads as WARNING.
   */
  function ExitStatus(o: Outcome): nat {
    if o.Aborted? then ExceptionStatus else o.verdict.code
  }

  /** The position of the last `/`, if any. */
  function LastSlash(s: string): (r: Option<nat>)
    ensures r.None? <==> '/' !in s
    ensures r.Some? ==> r.value < |s| && s[r.value] == '/' && '/' !in s[r.value + 1..]
  {
    if |s| == 0 then None
    else if s[|s| - 1] == '/' then Some(|s| - 1)
    else
      var r := LastSlash(s[..|s| - 1]);
      assert s == s[..|s| - 1] + [s[|s| - 1]];
      if r.Some? then
        assert s[r.value + 1..] == s[..|s| - 1][r.value + 1..] + [s[|s| - 1]];
        r
      else r
  }

  /**
   * `path.rsplit('/', 2)[1]`: the piece before the last `/`-separated piece,
   * or the piece after the only `/`; None (an IndexError) without any `/`.
   */
  function DirLabel(path: string): (r: Option<string>)
    ensures var parts := Split(path, '/');
      && (|parts| == 1 ==> r.None?)
      && (|parts| == 2 ==> r == Some(parts[1]))
      && (|parts| >= 3 ==> r == Some(parts[|parts| - 2]))
  {
    match LastSlash(path)
    case None =>
      SplitAfterPlainPrefix(path, "", '/');
      assert path + "" == path;
      None
    case Some(i) =>
      var head := path[..i];
      var last := path[i + 1..];
      assert path == head + ['/'] + last;
      SplitAtLast(head, last, '/');
      match LastSlash(head)
      case None =>
        SplitAfterPlainPrefix(head, "", '/');
        assert head + "" == head;
        Some(last)
      case Some(j) =>
        var mid := head[j + 1..];
        assert head == head[..j] + ['/'] + mid;
        SplitAtLast(head[..j], mid, '/');
        Some(mid)
  }

  /**
   * The history file: the `-d` path as given for `-Z`, and for `-z` that path
   * with `.` and the directory label appended. An empty `-z` counts as absent,
   * and the source then splits the missing `-Z` value, so there is no file.
   */
  function DbFile(config: Config): (r: Option<string>)
    ensures config.source.ZoneList? ==> r == Some(config.database)
    ensures config.source.ZoneDir? && config.source.path == "" ==> r.None?
    ensures config.source.ZoneDir? && config.source.path != "" ==>
      (r.Some? <==> '/' in config.source.path)
    ensures r.Some? && config.source.ZoneDir? ==>
      DirLabel(config.source.path).Some? && r.value == config.database + "." + DirLabel(config.source.path).value
    ensures r.Some? && config.source.ZoneDir? ==>
      StartsWith(r.value, config.database + ".") && '/' !in r.value[|config.database| + 1..]
  {
    match config.source
    case ZoneList(_) => Some(config.database)
    case ZoneDir(path, _) =>
      if path == "" then None
      else
        match DirLabel(path) {
          case None =>
            NoSlashNoPieces(path);
            None
          case Some(tag) =>
            SomeSlashPieces(path);
            var file := config.database + "." + tag;
            assert file[..|config.database + "."|] == config.database + ".";
            assert file[|config.database| + 1..] == tag;
            Some(file)
        }
  }

  lemma NoSlashNoPieces(path: string)
    requires DirLabel(path).None?
    ensures '/' !in path
  {
    OccurrencesPositive(path, '/');
  }

  lemma SomeSlashPieces(path: string)
    requires DirLabel(path).Some?
    ensures '/' in path && '/' !in DirLabel(path).value
  {
    OccurrencesPositive(path, '/');
  }

  /**
   * The configured zone names: the `-Z` list cut at every comma, empty
   * pieces included, or the directory's entries as listed.
   */
  function ConfiguredZones(config: Config): (zones: seq<string>)
    ensures config.source.ZoneDir? ==> zones == config.source.listing
    ensures config.source.ZoneList? ==>
      && |zones| == Occurrences(config.source.names, ',') + 1
      && (forall i :: 0 <= i < |zones| ==> ',' !in zones[i])
      && Join(zones, ",") == config.source.names
  {
    match config.source
    case ZoneList(names) =>
      JoinSplit(names, ',');
      Split(names, ',')
    case ZoneDir(_, listing) => listing
  }

  /** What a run works with once the command line is parsed: the lists split, the history file named. */
  datatype Plan = Plan(
    master: string,
    slaves: seq<string>,
    zones: seq<string>,
    path: string,
    delta: int,
    verbose: nat)

  /** The plan of a command line; None when no history file name can be formed. */
  function PlanOf(config: Config): (p: Option<Plan>)
    ensures p.Some? <==> DbFile(config).Some?
    ensures p.Some? ==> p.value.path == DbFile(config).value && p.value.slaves == Split(config.slaves, ',')
    ensures p.Some? ==> p.value.master == config.master && p.value.zones == ConfiguredZones(config)
    ensures p.Some? ==> p.value.delta == config.delta && p.value.verbose == config.verbose
  {
    match DbFile(config)
    case None => None
    case Some(path) =>
      Some(Plan(config.master, Split(config.slaves, ','), ConfiguredZones(config), path, config.delta, config.verbose))
  }

  /** The store init leaves at the plan's path: the stored rows, or the seeds when there is no file yet. */
  function Initialized(plan: Plan, files: map<string, Store>): (r: Store)
    ensures plan.path in files ==> r == files[plan.path]
    ensures plan.path !in files ==> r == Init(plan.zones, plan.slaves, None)
  {
    Init(plan.zones, plan.slaves, if plan.path in files then Some(files[plan.path]) else None)
  }

  /**
   * The store after init and refresh, with the messages refresh produced:
   * the master's silences, once per slave, and nothing else.
   */
  function Refreshed(plan: Plan, files: map<string, Store>, fetch: Transport, now: Clock): (r: Stage)
    ensures r.results.warn == [] && r.results.ok == []
    ensures r.results.error == Repeat(NoResponses(plan.master, DistinctZones(Initialized(plan, files)), fetch), |plan.slaves|)
    ensures r.store == Initialized(plan, files) + Observations(plan.master, plan.slaves, DistinctZones(Initialized(plan, files)), fetch, now)
  {
    Refresh(plan.master, plan.slaves, fetch, now, Stage(Initialized(plan, files), NoResults))
  }

  /**
   * `main`: init, refresh, check, exit. The run aborts, touching nothing, when
   * the file name cannot be formed; otherwise it carries out its plan, which
   * writes only that file. Exit status 1 (WARNING) comes only from an abort.
   */
  function Run(config: Config, files: map<string, Store>, fetch: Transport, now: Clock): (o: Outcome)
    ensures DbFile(config).None? ==> o == Aborted(files)
    ensures DbFile(config).Some? ==>
      var path := DbFile(config).value;
      path in o.files && o.files == files[path := o.files[path]]
    ensures DbFile(config).Some? ==> o == Execute(PlanOf(config).value, files, fetch, now)
    ensures ExitStatus(o) == WarningCode <==> o.Aborted?
  {
    match PlanOf(config)
    case None => Aborted(files)
    case Some(plan) => Execute(plan, files, fetch, now)
  }

  /**
   * A run with its plan: only the plan's history file changes, and a finished
   * run is never WARNING, so status 1 means the run aborted.
   */
  function Execute(plan: Plan, files: map<string, Store>, fetch: Transport, now: Clock): (o: Outcome)
    ensures plan.path in o.files && o.files == files[plan.path := o.files[plan.path]]
    ensures ExitStatus(o) == WarningCode <==> o.Aborted?
  {
    var refreshed := Refreshed(plan, files, fetch, now);
    var o := Conclude(plan, files, refreshed, fetch, now);
    if o.Finished? then ConcludeVerdict(plan, files, refreshed, fetch, now); o else o
  }

  /**
   * Check and exit after refresh. The run aborts when some pair has no row
   * before the cutoff; the rows refresh wrote are kept then, since refresh
   * commits before check starts.
   */
  function Conclude(plan: Plan, files: map<string, Store>, refreshed: Stage, fetch: Transport, now: Clock): (o: Outcome)
    ensures plan.path in o.files && o.files == files[plan.path := o.files[plan.path]]
    ensures o.Aborted? <==> !Referenced(refreshed.store, plan.slaves, DistinctZones(refreshed.store), now - plan.delta)
  {
    if !Referenced(refreshed.store, plan.slaves, DistinctZones(refreshed.store), now - plan.delta) then
      Aborted(files[plan.path := refreshed.store])
    else
      var checked := Check(refreshed.store, plan.slaves, fetch, now, plan.delta, refreshed.results);
      Finished(files[plan.path := checked.store], NagiosExit(checked.results, plan.verbose))
  }

  /** What the file holds after the run: the refreshed rows, pruned once check has run. */
  lemma ConcludeStore(plan: Plan, files: map<string, Store>, refreshed: Stage, fetch: Transport, now: Clock)
    ensures var o := Conclude(plan, files, refreshed, fetch, now);
      && (o.Aborted? ==> o.files[plan.path] == refreshed.store)
      && (o.Finished? ==> o.files[plan.path] == Prune(refreshed.store, now - 2 * plan.delta))
  {
    if Referenced(refreshed.store, plan.slaves, DistinctZones(refreshed.store), now - plan.delta) {
      var checked := Check(refreshed.store, plan.slaves, fetch, now, plan.delta, refreshed.results);
      assert checked.store == Prune(refreshed.store, now - 2 * plan.delta);
      assert Conclude(plan, files, refreshed, fetch, now).files[plan.path] == checked.store;
    }
  }

  /** A run that finds every reference row reports the buckets check filled. */
  lemma ConcludeUnfold(plan: Plan, files: map<string, Store>, refreshed: Stage, fetch: Transport, now: Clock)
    requires Referenced(refreshed.store, plan.slaves, DistinctZones(refreshed.store), now - plan.delta)
    ensures Conclude(plan, files, refreshed, fetch, now).Finished?
    ensures Conclude(plan, files, refreshed, fetch, now).verdict
         == NagiosExit(Check(refreshed.store, plan.slaves, fetch, now, plan.delta, refreshed.results).results, plan.verbose)
  {
  }

  /**
   * The verdict after check, with no warning from earlier stages: OK exactly
   * when no message reached the error bucket and every pair is in tolerance,
   * CRITICAL otherwise.
   */
  lemma ConcludeVerdict(plan: Plan, files: map<string, Store>, refreshed: Stage, fetch: Transport, now: Clock)
    requires refreshed.results.warn == []
    requires Referenced(refreshed.store, plan.slaves, DistinctZones(refreshed.store), now - plan.delta)
    ensures var o := Conclude(plan, files, refreshed, fetch, now);
      var converged := Converged(refreshed.store, plan.slaves, DistinctZones(refreshed.store), fetch, now - plan.delta);
      && o.Finished?
      && (o.verdict.code == OkCode <==> refreshed.results.error == [] && converged)
      && (o.verdict.code == CriticalCode <==> !(refreshed.results.error == [] && converged))
  {
    ConcludeUnfold(plan, files, refreshed, fetch, now);
    var store := refreshed.store;
    var zones := DistinctZones(store);
    var cutoff := now - plan.delta;
    assert Check(store, plan.slaves, fetch, now, plan.delta, refreshed.results).results
        == CheckSlaves(store, plan.slaves, zones, fetch, cutoff, refreshed.results);
    CheckVerdict(store, plan.slaves, zones, fetch, cutoff, refreshed.results, plan.verbose);
  }

  /** The verdict over check's buckets: OK exactly when nothing failed before check and every pair is in tolerance. */
  lemma CheckVerdict(store: Store, slaves: seq<string>, zones: seq<string>, fetch: Transport, cutoff: int, prior: Results, verbose: nat)
    requires prior.warn == []
    requires Referenced(store, slaves, zones, cutoff)
    ensures var code := NagiosExit(CheckSlaves(store, slaves, zones, fetch, cutoff, prior), verbose).code;
      var converged := Converged(store, slaves, zones, fetch, cutoff);
      && (code == OkCode <==> prior.error == [] && converged)
      && (code == CriticalCode <==> !(prior.error == [] && converged))
  {
    CheckErrorsEmpty(store, slaves, zones, fetch, cutoff);
    VerdictOfClean(CheckSlaves(store, slaves, zones, fetch, cutoff, prior), prior.error,
                   CheckErrors(store, slaves, zones, fetch, cutoff),
                   Converged(store, slaves, zones, fetch, cutoff), verbose);
  }

  /** The verdict step of CheckVerdict, over plain values: `clean` says the later errors are empty. */
  lemma VerdictOfClean(results: Results, prior: seq<string>, extra: seq<string>, clean: bool, verbose: nat)
    requires results.error == prior + extra && results.warn == []
    requires extra == [] <==> clean
    ensures NagiosExit(results, verbose).code == OkCode <==> prior == [] && clean
    ensures NagiosExit(results, verbose).code == CriticalCode <==> !(prior == [] && clean)
  {
    VerdictOfErrors(results, prior, extra, verbose);
  }

  // ------------------------------------------------------------ across runs

  /** A fresh store is seeded. */
  lemma InitSeeded(zones: seq<string>, slaves: seq<string>)
    ensures Seeded(Init(zones, slaves, None), slaves)
  {
    var store := Init(zones, slaves, None);
    forall row, slave | row in store && slave in slaves
      ensures Row(Sentinel, row.zone, 0, slave) in store
    {
      InitRows(zones, slaves, row);
      InitRows(zones, slaves, Row(Sentinel, row.zone, 0, slave));
    }
    SeededMeans(store, slaves);
  }

  /** Refresh keeps a store seeded: the rows it adds are for zones the store already holds. */
  lemma RefreshSeeded(master: string, slaves: seq<string>, fetch: Transport, now: Clock, st: Stage)
    requires Seeded(st.store, slaves)
    ensures Seeded(Refresh(master, slaves, fetch, now, st).store, slaves)
  {
    var r := Refresh(master, slaves, fetch, now, st).store;
    RefreshKeepsZones(master, slaves, fetch, now, st);
    SeededMeans(st.store, slaves);
    forall row, slave | row in r && slave in slaves
      ensures Row(Sentinel, row.zone, 0, slave) in r
    {
      assert row.zone in StoredZones(r);
      var earlier :| earlier in st.store && earlier.zone == row.zone;
      assert Row(Sentinel, row.zone, 0, slave) in st.store;
    }
    SeededMeans(r, slaves);
  }

  /** Seed rows answer every reference lookup, whatever the cutoff. */
  lemma SeededReferenced(store: Store, slaves: seq<string>, cutoff: int)
    requires Seeded(store, slaves)
    ensures Referenced(store, slaves, DistinctZones(store), cutoff)
  {
    SeededMeans(store, slaves);
    forall slave, zone | slave in slaves && zone in DistinctZones(store)
      ensures LatestBefore(store, zone, slave, cutoff).Some?
    {
      var row :| row in store && row.zone == zone;
      SeedAnswersLookup(store, zone, slave, cutoff);
    }
  }

  /**
   * When a run aborts: exactly when some (slave, zone) pair of the refreshed
   * store has no row before the cutoff, and the file then keeps the rows
   * init and refresh committed.
   */
  lemma ExecuteAborts(plan: Plan, files: map<string, Store>, fetch: Transport, now: Clock)
    ensures var store := Refreshed(plan, files, fetch, now).store;
      Execute(plan, files, fetch, now).Aborted? <==> !Referenced(store, plan.slaves, DistinctZones(store), now - plan.delta)
    ensures Execute(plan, files, fetch, now).Aborted? ==>
      Execute(plan, files, fetch, now).files[plan.path] == Refreshed(plan, files, fetch, now).store
  {
    var refreshed := Refreshed(plan, files, fetch, now);
    assert Execute(plan, files, fetch, now) == Conclude(plan, files, refreshed, fetch, now);
    ConcludeStore(plan, files, refreshed, fetch, now);
  }

  /** Init and refresh leave the file seeded when it is new or was seeded already. */
  lemma RefreshedSeeded(plan: Plan, files: map<string, Store>, fetch: Transport, now: Clock)
    requires plan.path !in files || Seeded(files[plan.path], plan.slaves)
    ensures Seeded(Refreshed(plan, files, fetch, now).store, plan.slaves)
  {
    if plan.path !in files {
      InitSeeded(plan.zones, plan.slaves);
    }
    RefreshSeeded(plan.master, plan.slaves, fetch, now, Stage(Initialized(plan, files), NoResults));
  }

  /** A finished run leaves the file holding the refreshed rows, pruned. */
  lemma FinishedStore(plan: Plan, files: map<string, Store>, fetch: Transport, now: Clock)
    requires var store := Refreshed(plan, files, fetch, now).store;
      Referenced(store, plan.slaves, DistinctZones(store), now - plan.delta)
    ensures Execute(plan, files, fetch, now).Finished?
    ensures Execute(plan, files, fetch, now).files[plan.path]
         == Prune(Refreshed(plan, files, fetch, now).store, now - 2 * plan.delta)
  {
    var refreshed := Refreshed(plan, files, fetch, now);
    assert Execute(plan, files, fetch, now) == Conclude(plan, files, refreshed, fetch, now);
    ConcludeStore(plan, files, refreshed, fetch, now);
  }

  /**
   * Runs with an unchanged slave list never abort: on a new file, or on one
   * whose every zone is seeded for every slave, the run reaches a verdict.
   */
  lemma SeededRunFinishes(plan: Plan, files: map<string, Store>, fetch: Transport, now: Clock)
    requires plan.path !in files || Seeded(files[plan.path], plan.slaves)
    ensures Execute(plan, files, fetch, now).Finished?
  {
    var store := Refreshed(plan, files, fetch, now).store;
    RefreshedSeeded(plan, files, fetch, now);
    SeededReferenced(store, plan.slaves, now - plan.delta);
    FinishedStore(plan, files, fetch, now);
  }

  /** A run that starts from a seeded file leaves it seeded for the next run, whether it finishes or aborts. */
  lemma RunKeepsSeeded(plan: Plan, files: map<string, Store>, fetch: Transport, now: Clock)
    requires plan.path !in files || Seeded(files[plan.path], plan.slaves)
    ensures Seeded(Execute(plan, files, fetch, now).files[plan.path], plan.slaves)
  {
    var refreshed := Refreshed(plan, files, fetch, now);
    RefreshedSeeded(plan, files, fetch, now);
    ConcludeKeepsSeeded(plan, files, refreshed, fetch, now);
  }

  /** Check keeps the refreshed store seeded, since pruning never drops a seed row. */
  lemma ConcludeKeepsSeeded(plan: Plan, files: map<string, Store>, refreshed: Stage, fetch: Transport, now: Clock)
    requires Seeded(refreshed.store, plan.slaves)
    ensures Seeded(Conclude(plan, files, refreshed, fetch, now).files[plan.path], plan.slaves)
  {
    ConcludeStore(plan, files, refreshed, fetch, now);
    PruneSeeded(refreshed.store, plan.slaves, now - 2 * plan.delta);
  }

  /**
   * The verdict of a run that finds a reference row for every pair: the run
   * finishes, CRITICAL exactly when the master failed to answer for some
   * zone (refresh only asks it when there are slaves) or some pair is out of
   * tolerance, OK otherwise; WARNING never, since no rule fills that bucket.
   */
  lemma RunVerdict(plan: Plan, files: map<string, Store>, fetch: Transport, now: Clock)
    requires var store := Refreshed(plan, files, fetch, now).store;
      Referenced(store, plan.slaves, DistinctZones(store), now - plan.delta)
    ensures Execute(plan, files, fetch, now).Finished?
    ensures var store := Refreshed(plan, files, fetch, now).store;
      var masterOk := plan.slaves == [] || NoResponses(plan.master, DistinctZones(Initialized(plan, files)), fetch) == [];
      var converged := Converged(store, plan.slaves, DistinctZones(store), fetch, now - plan.delta);
      && (Execute(plan, files, fetch, now).verdict.code == OkCode <==> masterOk && converged)
      && (Execute(plan, files, fetch, now).verdict.code == CriticalCode <==> !(masterOk && converged))
  {
    var refreshed := Refreshed(plan, files, fetch, now);
    var nr := NoResponses(plan.master, DistinctZones(Initialized(plan, files)), fetch);
    ConcludeVerdict(plan, files, refreshed, fetch, now);
    if |plan.slaves| > 0 {
      RepeatEmpty(nr, |plan.slaves|);
    }
    assert Execute(plan, files, fetch, now) == Conclude(plan, files, refreshed, fetch, now);
  }

  /**
   * The command-line view of the seeding guarantee: a run whose history file
   * is new, or seeded for the configured slaves, reaches a verdict and leaves
   * the file seeded for the next run.
   */
  lemma ConfiguredRunFinishes(config: Config, files: map<string, Store>, fetch: Transport, now: Clock)
    requires DbFile(config).Some?
    requires var path := DbFile(config).value;
      path !in files || Seeded(files[path], Split(config.slaves, ','))
    ensures Run(config, files, fetch, now).Finished?
    ensures Seeded(Run(config, files, fetch, now).files[DbFile(config).value], Split(config.slaves, ','))
  {
    var plan := PlanOf(config).value;
    SeededRunFinishes(plan, files, fetch, now);
    RunKeepsSeeded(plan, files, fetch, now);
  }

  /**
   * The command-line view of the verdict: when every reference lookup
   * succeeds, the run with the configured master, slaves and zones finishes
   * OK exactly when the master answered for every stored zone (or there are
   * no slaves) and every pair is in tolerance, CRITICAL otherwise.
   */
  lemma ConfiguredRunVerdict(config: Config, plan: Plan, files: map<string, Store>, fetch: Transport, now: Clock)
    requires PlanOf(config) == Some(plan)
    requires var store := Refreshed(plan, files, fetch, now).store;
      Referenced(store, plan.slaves, DistinctZones(store), now - plan.delta)
    ensures Run(config, files, fetch, now).Finished?
    ensures var store := Refreshed(plan, files, fetch, now).store;
      var masterOk := plan.slaves == [] || NoResponses(plan.master, DistinctZones(Initialized(plan, files)), fetch) == [];
      var converged := Converged(store, plan.slaves, DistinctZones(store), fetch, now - plan.delta);
      && (Run(config, files, fetch, now).verdict.code == OkCode <==> masterOk && converged)
      && (Run(config, files, fetch, now).verdict.code == CriticalCode <==> !(masterOk && converged))
  {
    assert Run(config, files, fetch, now) == Execute(plan, files, fetch, now);
    RunVerdict(plan, files, fetch, now);
  }

  /** Repeating a list a positive number of times is empty exactly when the list is. */
  lemma {:induction false} RepeatEmpty(s: seq<string>, n: nat)
    requires n > 0
    ensures Repeat(s, n) == [] <==> s == []
  {
    assert Repeat(s, n) == s + Repeat(s, n - 1);
    if n > 1 {
      RepeatEmpty(s, n - 1);
    }
  }
}

=== FILE: stages.dfy ===
/**
 * The three stages of one plugin run over the history store: seeding the
 * store on first use, recording the master's serials, and judging every
 * slave against the master's serial of one grace window earlier.
 */
module Stages {
  import opened Wrappers
  import opened Text
  import opened History
  import opened Fetcher

  /** The store and the result buckets, threaded from stage to stage. */
  datatype Stage = Stage(store: Store, results: Results)

  // ---------------------------------------------------------------- seeding

  /** Names that are never tracked: shorter than two characters, or temporary (`tmp-`). */
  predicate Skipped(zone: string) {
    |zone| < 2 || StartsWith(zone, "tmp-")
  }

  /** The stored name of a configured zone: the alias `root` stands for the DNS root `.`. */
  function Canonical(zone: string): string {
    if zone == "root" then "." else zone
  }

  /** The configured zones init seeds, in configured order and under their stored names. */
  function TrackedZones(zones: seq<string>): (kept: seq<string>)
    ensures |kept| <= |zones|
  {
    if |zones| == 0 then []
    else (if Skipped(zones[0]) then [] else [Canonical(zones[0])]) + TrackedZones(zones[1..])
  }

  /**
   * The filter works entry by entry: a list's kept names are its parts' kept
   * names in order, and one entry gives its stored name, or nothing when it is
   * skipped. So a name configured twice is seeded twice.
   */
  lemma {:induction false} TrackedZonesAppend(a: seq<string>, b: seq<string>)
    ensures TrackedZones(a + b) == TrackedZones(a) + TrackedZones(b)
    ensures |a| == 1 ==> TrackedZones(a) == if Skipped(a[0]) then [] else [Canonical(a[0])]
  {
    if |a| == 0 {
      assert a + b == b;
    } else {
      assert (a + b)[1..] == a[1..] + b;
      TrackedZonesAppend(a[1..], b);
      if |a| == 1 {
        assert a[1..] == [];
      }
    }
  }

  /** A name is tracked exactly when it is the stored name of a configured zone that passes the filter. */
  lemma {:induction false} TrackedZonesMeans(zones: seq<string>, z: string)
    ensures z in TrackedZones(zones) <==> exists i :: 0 <= i < |zones| && !Skipped(zones[i]) && z == Canonical(zones[i])
  {
    if |zones| > 0 {
      TrackedZonesMeans(zones[1..], z);
      if exists i :: 0 <= i < |zones| && !Skipped(zones[i]) && z == Canonical(zones[i]) {
        var i :| 0 <= i < |zones| && !Skipped(zones[i]) && z == Canonical(zones[i]);
        if i > 0 {
          assert zones[1..][i - 1] == zones[i];
        }
      }
      if z in TrackedZones(zones[1..]) {
        var i :| 0 <= i < |zones[1..]| && !Skipped(zones[1..][i]) && z == Canonical(zones[1..][i]);
        assert zones[i + 1] == zones[1..][i];
      }
    }
  }

  /** A seed row: sentinel time, serial 0. */
  predicate IsSeed(row: Row) {
    IsSentinel(row) && row.serial == 0
  }

  /** The seed rows for one slave: one per kept zone, in zone order. */
  function SeedsFor(slave: string, kept: seq<string>): (rows: Store)
    ensures |rows| == |kept|
  {
    if |kept| == 0 then []
    else SeedsFor(slave, kept[..|kept| - 1]) + [Row(Sentinel, kept[|kept| - 1], 0, slave)]
  }

  /** The seed rows for one slave hold each of its seed rows once per occurrence of the zone, and nothing else. */
  lemma {:induction false} SeedsForCounts(slave: string, kept: seq<string>, row: Row)
    ensures multiset(SeedsFor(slave, kept))[row] == if IsSeed(row) && row.slave == slave then multiset(kept)[row.zone] else 0
  {
    if |kept| > 0 {
      var last := kept[|kept| - 1];
      assert kept == kept[..|kept| - 1] + [last];
      SeedsForCounts(slave, kept[..|kept| - 1], row);
    }
  }

  /** How often seeding slaves × kept writes `row`: once per occurrence of its slave and of its zone. */
  function SeedCount(slaves: seq<string>, kept: seq<string>, row: Row): nat {
    if IsSeed(row) then multiset(slaves)[row.slave] * multiset(kept)[row.zone] else 0
  }

  /** The seed rows for every slave and kept zone, slave by slave. */
  function SeedRows(slaves: seq<string>, kept: seq<string>): (rows: Store)
    ensures |rows| == |slaves| * |kept|
  {
    if |slaves| == 0 then []
    else
      var init := slaves[..|slaves| - 1];
      MulSucc(|init|, |kept|);
      SeedRows(init, kept) + SeedsFor(slaves[|slaves| - 1], kept)
  }

  lemma MulSucc(a: nat, k: nat)
    ensures (a + 1) * k == a * k + k
  {
  }

  /** Seeding writes each row as often as its count says. */
  lemma {:induction false} SeedRowsCounts(slaves: seq<string>, kept: seq<string>, row: Row)
    ensures multiset(SeedRows(slaves, kept))[row] == SeedCount(slaves, kept, row)
  {
    if |slaves| > 0 {
      var init := slaves[..|slaves| - 1];
      var last := slaves[|slaves| - 1];
      assert slaves == init + [last];
      var earlier, added := SeedRows(init, kept), SeedsFor(last, kept);
      assert SeedRows(slaves, kept) == earlier + added;
      assert multiset(SeedRows(slaves, kept))[row] == multiset(earlier)[row] + multiset(added)[row];
      SeedRowsCounts(init, kept, row);
      SeedsForCounts(last, kept, row);
      SeedCountStep(init, last, kept, row);
    }
  }

  /** One more slave adds its seed rows to the count. */
  lemma SeedCountStep(init: seq<string>, last: string, kept: seq<string>, row: Row)
    ensures SeedCount(init + [last], kept, row)
         == SeedCount(init, kept, row) + if IsSeed(row) && row.slave == last then multiset(kept)[row.zone] else 0
  {
    if IsSeed(row) {
      var a := multiset(init)[row.slave];
      var k := multiset(kept)[row.zone];
      if row.slave == last {
        assert multiset(init + [last])[row.slave] == a + 1;
        MulSucc(a, k);
      } else {
        assert multiset(init + [last])[row.slave] == a;
      }
    }
  }

  /**
   * `init`: when the store does not exist yet (`existing` is None) it is
   * created holding the seed rows, one per slave occurrence and kept zone
   * occurrence; an existing store is left as it is.
   */
  function Init(zones: seq<string>, slaves: seq<string>, existing: Option<Store>): (store: Store)
    ensures existing.Some? ==> store == existing.value
    ensures existing.None? ==> |store| == |slaves| * |TrackedZones(zones)|
  {
    match existing
    case Some(store) => store
    case None => SeedRows(slaves, TrackedZones(zones))
  }

  /** A fresh store holds every row exactly as often as seeding writes it. */
  lemma InitCounts(zones: seq<string>, slaves: seq<string>, row: Row)
    ensures multiset(Init(zones, slaves, None))[row] == SeedCount(slaves, TrackedZones(zones), row)
  {
    SeedRowsCounts(slaves, TrackedZones(zones), row);
  }

  /** A product of naturals is positive exactly when both factors are. */
  lemma PositiveProduct(a: nat, b: nat)
    ensures a * b > 0 <==> a > 0 && b > 0
  {
    if a > 0 && b > 0 {
      assert a * b >= b;
    }
  }

  /** A row is seeded into a fresh store exactly when it is a seed row for a configured slave and a kept zone. */
  lemma InitRows(zones: seq<string>, slaves: seq<string>, row: Row)
    ensures row in Init(zones, slaves, None) <==> IsSeed(row) && row.slave in slaves && row.zone in TrackedZones(zones)
  {
    var store := Init(zones, slaves, None);
    var kept := TrackedZones(zones);
    InitCounts(zones, slaves, row);
    assert row in store <==> multiset(store)[row] > 0;
    assert row.slave in slaves <==> multiset(slaves)[row.slave] > 0;
    assert row.zone in kept <==> multiset(kept)[row.zone] > 0;
    PositiveProduct(multiset(slaves)[row.slave], multiset(kept)[row.zone]);
  }

  /**
   * A fresh store holds only seed rows, for configured slaves and for names
   * that passed the filter, never a short or `tmp-` name and never `root`.
   */
  lemma InitFiltersZones(zones: seq<string>, slaves: seq<string>)
    ensures forall row :: row in Init(zones, slaves, None) ==>
      && IsSeed(row)
      && row.slave in slaves
      && row.zone != "root"
      && (row.zone == "." || !Skipped(row.zone))
      && (exists i :: 0 <= i < |zones| && !Skipped(zones[i]) && row.zone == Canonical(zones[i]))
  {
    forall row | row in Init(zones, slaves, None)
      ensures IsSeed(row) && row.slave in slaves && row.zone in TrackedZones(zones)
      ensures exists i :: 0 <= i < |zones| && !Skipped(zones[i]) && row.zone == Canonical(zones[i])
    {
      InitRows(zones, slaves, row);
      TrackedZonesMeans(zones, row.zone);
    }
  }

  /** A configured `root` gives every slave a seed row for the root zone `.`. */
  lemma InitAliasesRoot(zones: seq<string>, slaves: seq<string>)
    requires "root" in zones
    ensures forall slave :: slave in slaves ==> Row(Sentinel, ".", 0, slave) in Init(zones, slaves, None)
  {
    var i :| 0 <= i < |zones| && zones[i] == "root";
    assert "root"[..4] == "root" && "root"[0] != "tmp-"[0];
    assert !Skipped(zones[i]) && Canonical(zones[i]) == ".";
    TrackedZonesMeans(zones, ".");
    forall slave | slave in slaves
      ensures Row(Sentinel, ".", 0, slave) in Init(zones, slaves, None)
    {
      InitRows(zones, slaves, Row(Sentinel, ".", 0, slave));
    }
  }

  /** With distinct slaves and distinct kept zones a fresh store holds each seed row exactly once. */
  lemma InitSeedsEachPairOnce(zones: seq<string>, slaves: seq<string>, zone: string, slave: string)
    requires forall i, j :: 0 <= i < j < |slaves| ==> slaves[i] != slaves[j]
    requires forall i, j :: 0 <= i < j < |TrackedZones(zones)| ==> TrackedZones(zones)[i] != TrackedZones(zones)[j]
    requires slave in slaves && zone in TrackedZones(zones)
    ensures multiset(Init(zones, slaves, None))[Row(Sentinel, zone, 0, slave)] == 1
  {
    InitCounts(zones, slaves, Row(Sentinel, zone, 0, slave));
    SeedOnce(slaves, TrackedZones(zones), zone, slave);
  }

  lemma SeedOnce(slaves: seq<string>, kept: seq<string>, zone: string, slave: string)
    requires forall i, j :: 0 <= i < j < |slaves| ==> slaves[i] != slaves[j]
    requires forall i, j :: 0 <= i < j < |kept| ==> kept[i] != kept[j]
    requires slave in slaves && zone in kept
    ensures SeedCount(slaves, kept, Row(Sentinel, zone, 0, slave)) == 1
  {
    DistinctOnce(slaves, slave);
    DistinctOnce(kept, zone);
  }

  lemma {:induction false} DistinctOnce<T>(s: seq<T>, x: T)
    requires forall i, j :: 0 <= i < j < |s| ==> s[i] != s[j]
    requires x in s
    ensures multiset(s)[x] == 1
  {
    var last := s[|s| - 1];
    var init := s[..|s| - 1];
    assert s == init + [last];
    if x == last {
      assert x !in init;
    } else {
      DistinctOnce(init, x);
    }
  }

  // ---------------------------------------------------------------- refresh

  lemma AppendTwice<T>(a: seq<T>, b: seq<T>, c: seq<T>)
    ensures a + b + c == a + (b + c)
  {
  }

  /** The master answers for `zone` with a non-zero serial. */
  predicate MasterServes(fetch: Transport, master: string, zone: string) {
    Query(fetch, master, zone).Some? && Query(fetch, master, zone).value != 0
  }

  /**
   * A row refresh is meant to record for `slave`: stamped `now`, for a listed
   * zone the master answers with a non-zero serial, holding that serial.
   */
  predicate Observation(row: Row, master: string, slaves: seq<string>, zones: seq<string>, fetch: Transport, now: Clock) {
    && row.time == now
    && row.slave in slaves
    && row.zone in zones
    && MasterServes(fetch, master, row.zone)
    && row.serial == Query(fetch, master, row.zone).value
  }

  /** Reference definition: the observations for one slave, one per served zone, in zone order. */
  function ObservationsFor(master: string, slave: string, zones: seq<string>, fetch: Transport, now: Clock): seq<Row> {
    if |zones| == 0 then []
    else
      (if MasterServes(fetch, master, zones[0]) then [Row(now, zones[0], Query(fetch, master, zones[0]).value, slave)] else [])
      + ObservationsFor(master, slave, zones[1..], fetch, now)
  }

  /** Reference definition: the observations for every slave, slave by slave. */
  function Observations(master: string, slaves: seq<string>, zones: seq<string>, fetch: Transport, now: Clock): seq<Row> {
    if |slaves| == 0 then []
    else ObservationsFor(master, slaves[0], zones, fetch, now) + Observations(master, slaves[1..], zones, fetch, now)
  }

  /** The observations for one slave are exactly the rows meant for it. */
  lemma {:induction false} ObservationsForExact(master: string, slave: string, zones: seq<string>, fetch: Transport, now: Clock, row: Row)
    ensures row in ObservationsFor(master, slave, zones, fetch, now) <==> Observation(row, master, [slave], zones, fetch, now)
  {
    if |zones| > 0 {
      ObservationsForExact(master, slave, zones[1..], fetch, now, row);
      assert row.zone in zones <==> row.zone == zones[0] || row.zone in zones[1..];
    }
  }

  /** The observations are exactly the rows meant for some configured slave. */
  lemma {:induction false} ObservationsExact(master: string, slaves: seq<string>, zones: seq<string>, fetch: Transport, now: Clock, row: Row)
    ensures row in Observations(master, slaves, zones, fetch, now) <==> Observation(row, master, slaves, zones, fetch, now)
  {
    if |slaves| > 0 {
      ObservationsForExact(master, slaves[0], zones, fetch, now, row);
      ObservationsExact(master, slaves[1..], zones, fetch, now, row);
      assert row.slave in slaves <==> row.slave == slaves[0] || row.slave in slaves[1..];
    }
  }

  /** The no-response message asking `server` about `zone` leaves: one on failure, none on success. */
  function Missed(server: string, zone: string, fetch: Transport): seq<string> {
    if Query(fetch, server, zone).None? then [NoResponse(zone, server)] else []
  }

  /** The no-response messages of one pass over `zones` against `server`, in order. */
  function NoResponses(server: string, zones: seq<string>, fetch: Transport): seq<string> {
    if |zones| == 0 then [] else Missed(server, zones[0], fetch) + NoResponses(server, zones[1..], fetch)
  }

  /** `n` copies of `s`, one after the other. */
  function Repeat(s: seq<string>, n: nat): seq<string> {
    if n == 0 then [] else s + Repeat(s, n - 1)
  }

  /**
   * One zone of refresh: ask the master; when it answers non-zero, ask again
   * (the source queries twice) and append the second answer for `slave` at `now`.
   */
  function RefreshZone(master: string, slave: string, zone: string, fetch: Transport, now: Clock, st: Stage): (r: Stage)
    ensures r.results == st.results.(error := st.results.error + Missed(master, zone, fetch))
    ensures MasterServes(fetch, master, zone) ==>
      r.store == st.store + [Row(now, zone, Query(fetch, master, zone).value, slave)]
    ensures !MasterServes(fetch, master, zone) ==> r.store == st.store
  {
    var (serial, results) := GetSerial(master, zone, fetch, st.results);
    if serial != 0 then
      var (again, results') := GetSerial(master, zone, fetch, results);
      Stage(st.store + [Row(now, zone, again, slave)], results')
    else
      Stage(st.store, results)
  }

  /** Refresh for one slave: every zone in turn. */
  function RefreshZones(master: string, slave: string, zones: seq<string>, fetch: Transport, now: Clock, st: Stage): (r: Stage)
    ensures r.store == st.store + ObservationsFor(master, slave, zones, fetch, now)
    ensures r.results == st.results.(error := st.results.error + NoResponses(master, zones, fetch))
  {
    if |zones| == 0 then st
    else
      var mid := RefreshZone(master, slave, zones[0], fetch, now, st);
      var r := RefreshZones(master, slave, zones[1..], fetch, now, mid);
      RefreshZonesStep(master, slave, zones, fetch, now, st, mid, r);
      r
  }

  lemma RefreshZonesStep(master: string, slave: string, zones: seq<string>, fetch: Transport, now: Clock, st: Stage, mid: Stage, r: Stage)
    requires |zones| > 0
    requires mid.results == st.results.(error := st.results.error + Missed(master, zones[0], fetch))
    requires MasterServes(fetch, master, zones[0]) ==>
      mid.store == st.store + [Row(now, zones[0], Query(fetch, master, zones[0]).value, slave)]
    requires !MasterServes(fetch, master, zones[0]) ==> mid.store == st.store
    requires r.store == mid.store + ObservationsFor(master, slave, zones[1..], fetch, now)
    requires r.results == mid.results.(error := mid.results.error + NoResponses(master, zones[1..], fetch))
    ensures r.store == st.store + ObservationsFor(master, slave, zones, fetch, now)
    ensures r.results == st.results.(error := st.results.error + NoResponses(master, zones, fetch))
  {
    var head := if MasterServes(fetch, master, zones[0]) then [Row(now, zones[0], Query(fetch, master, zones[0]).value, slave)] else [];
    AppendTwice(st.store, head, ObservationsFor(master, slave, zones[1..], fetch, now));
    AppendTwice(st.results.error, Missed(master, zones[0], fetch), NoResponses(master, zones[1..], fetch));
  }

  /** Refresh over every slave, each against the same zone list. */
  function RefreshSlaves(master: string, slaves: seq<string>, zones: seq<string>, fetch: Transport, now: Clock, st: Stage): (r: Stage)
    ensures r.store == st.store + Observations(master, slaves, zones, fetch, now)
    ensures r.results == st.results.(error := st.results.error + Repeat(NoResponses(master, zones, fetch), |slaves|))
  {
    if |slaves| == 0 then st
    else
      var mid := RefreshZones(master, slaves[0], zones, fetch, now, st);
      var r := RefreshSlaves(master, slaves[1..], zones, fetch, now, mid);
      RefreshSlavesStep(master, slaves, zones, fetch, now, st, mid, r);
      r
  }

  lemma RefreshSlavesStep(master: string, slaves: seq<string>, zones: seq<string>, fetch: Transport, now: Clock, st: Stage, mid: Stage, r: Stage)
    requires |slaves| > 0
    requires mid.store == st.store + ObservationsFor(master, slaves[0], zones, fetch, now)
    requires mid.results == st.results.(error := st.results.error + NoResponses(master, zones, fetch))
    requires r.store == mid.store + Observations(master, slaves[1..], zones, fetch, now)
    requires r.results == mid.results.(error := mid.results.error + Repeat(NoResponses(master, zones, fetch), |slaves| - 1))
    ensures r.store == st.store + Observations(master, slaves, zones, fetch, now)
    ensures r.results == st.results.(error := st.results.error + Repeat(NoResponses(master, zones, fetch), |slaves|))
  {
    var nr := NoResponses(master, zones, fetch);
    AppendTwice(st.results.error, nr, Repeat(nr, |slaves| - 1));
    AppendTwice(st.store, ObservationsFor(master, slaves[0], zones, fetch, now), Observations(master, slaves[1..], zones, fetch, now));
  }

  /**
   * `refresh`: for every slave and every zone the store knows, record the
   * master's current serial. Existing rows stay as they are; what is appended
   * is exactly one observation per slave and served zone; the only messages
   * are no-response ones, one per slave per zone the master did not answer.
   */
  function Refresh(master: string, slaves: seq<string>, fetch: Transport, now: Clock, st: Stage): (r: Stage)
    ensures r.store == st.store + Observations(master, slaves, DistinctZones(st.store), fetch, now)
    ensures r.results == st.results.(error := st.results.error + Repeat(NoResponses(master, DistinctZones(st.store), fetch), |slaves|))
  {
    RefreshSlaves(master, slaves, DistinctZones(st.store), fetch, now, st)
  }

  /**
   * What refresh appends, row by row: a row is new exactly when it is stamped
   * `now`, labelled with a configured slave, for a stored zone the master
   * answers non-zero, and holds that answer; rows already stored are unchanged.
   */
  lemma RefreshAppendsObservations(master: string, slaves: seq<string>, fetch: Transport, now: Clock, st: Stage, row: Row)
    ensures st.store <= Refresh(master, slaves, fetch, now, st).store
    ensures row in Refresh(master, slaves, fetch, now, st).store[|st.store|..] <==>
      Observation(row, master, slaves, DistinctZones(st.store), fetch, now)
  {
    var added := Observations(master, slaves, DistinctZones(st.store), fetch, now);
    assert Refresh(master, slaves, fetch, now, st).store[|st.store|..] == added;
    ObservationsExact(master, slaves, DistinctZones(st.store), fetch, now, row);
  }

  /** Refresh never introduces a zone: the zones the check iterates over are the ones refresh iterated over. */
  lemma RefreshKeepsZones(master: string, slaves: seq<string>, fetch: Transport, now: Clock, st: Stage)
    ensures StoredZones(Refresh(master, slaves, fetch, now, st).store) == StoredZones(st.store)
  {
    var r := Refresh(master, slaves, fetch, now, st);
    var added := Observations(master, slaves, DistinctZones(st.store), fetch, now);
    forall z | z in StoredZones(r.store)
      ensures z in StoredZones(st.store)
    {
      var row :| row in r.store && row.zone == z;
      if row !in st.store {
        assert row in added;
        ObservationsExact(master, slaves, DistinctZones(st.store), fetch, now, row);
      }
    }
  }

  // ---------------------------------------------------------------- check

  /** The message for a slave serving an older serial than the reference. */
  function Behind(zone: string, reference: nat, live: nat): string {
    zone + " behind: " + NatToString(reference) + " " + NatToString(live)
  }

  /** The message for a slave serving the reference serial or a newer one. */
  function InSync(zone: string, reference: nat, live: nat): string {
    zone + ": " + NatToString(reference) + " " + NatToString(live)
  }

  /** Every zone has a row for `slave` before the cutoff. */
  predicate ReferencedFor(store: Store, slave: string, zones: seq<string>, cutoff: int) {
    forall zone :: zone in zones ==> LatestBefore(store, zone, slave, cutoff).Some?
  }

  /** Every (slave, zone) pair has a row before the cutoff, so every reference lookup succeeds. */
  predicate Referenced(store: Store, slaves: seq<string>, zones: seq<string>, cutoff: int) {
    forall slave :: slave in slaves ==> ReferencedFor(store, slave, zones, cutoff)
  }

  /** The master's serial for the pair as it stood before the cutoff. */
  function Reference(store: Store, zone: string, slave: string, cutoff: int): Serial
    requires LatestBefore(store, zone, slave, cutoff).Some?
  {
    LatestBefore(store, zone, slave, cutoff).value.serial
  }

  /** Reference definition: what one pair adds to the error bucket, read off the slave's reply. */
  function PairErrors(slave: string, zone: string, reference: Serial, fetch: Transport): seq<string> {
    match Query(fetch, slave, zone)
    case None => [NoResponse(zone, slave)]
    case Some(live) => if 0 < live < reference then [Behind(zone, reference, live)] else []
  }

  /** Reference definition: what one pair adds to the ok bucket. */
  function PairOks(slave: string, zone: string, reference: Serial, fetch: Transport): seq<string> {
    match Query(fetch, slave, zone)
    case None => []
    case Some(live) => if 0 < live && reference <= live then [InSync(zone, reference, live)] else []
  }

  /**
   * One pair of check, once its reference is known: fetch the slave's serial
   * and compare. A lagging non-zero serial adds one `behind` error, a current
   * one adds one ok message, a served 0 adds nothing, and a failed fetch adds
   * only its no-response error.
   */
  function JudgePair(slave: string, zone: string, reference: Serial, fetch: Transport, results: Results): (r: Results)
    ensures r == Results(results.error + PairErrors(slave, zone, reference, fetch), results.warn,
                         results.ok + PairOks(slave, zone, reference, fetch))
    ensures Query(fetch, slave, zone).None? ==>
      r == results.(error := results.error + [NoResponse(zone, slave)])
    ensures Query(fetch, slave, zone) == Some(0) ==> r == results
    ensures forall live :: Query(fetch, slave, zone) == Some(live) && 0 < live < reference ==>
      r == results.(error := results.error + [Behind(zone, reference, live)])
    ensures forall live :: Query(fetch, slave, zone) == Some(live) && 0 < live && reference <= live ==>
      r == results.(ok := results.ok + [InSync(zone, reference, live)])
  {
    var (live, after) := GetSerial(slave, zone, fetch, results);
    if live != 0 then
      if live < reference then after.(error := after.error + [Behind(zone, reference, live)])
      else after.(ok := after.ok + [InSync(zone, reference, live)])
    else after
  }

  /** Reference definition: the errors of one slave's pass over `zones`. */
  function ZoneErrors(store: Store, slave: string, zones: seq<string>, fetch: Transport, cutoff: int): seq<string>
    requires ReferencedFor(store, slave, zones, cutoff)
  {
    if |zones| == 0 then []
    else PairErrors(slave, zones[0], Reference(store, zones[0], slave, cutoff), fetch)
         + ZoneErrors(store, slave, zones[1..], fetch, cutoff)
  }

  /** Reference definition: the ok messages of one slave's pass over `zones`. */
  function ZoneOks(store: Store, slave: string, zones: seq<string>, fetch: Transport, cutoff: int): seq<string>
    requires ReferencedFor(store, slave, zones, cutoff)
  {
    if |zones| == 0 then []
    else PairOks(slave, zones[0], Reference(store, zones[0], slave, cutoff), fetch)
         + ZoneOks(store, slave, zones[1..], fetch, cutoff)
  }

  /** Reference definition: the errors of the whole check, slave by slave. */
  function CheckErrors(store: Store, slaves: seq<string>, zones: seq<string>, fetch: Transport, cutoff: int): seq<string>
    requires Referenced(store, slaves, zones, cutoff)
  {
    if |slaves| == 0 then []
    else ZoneErrors(store, slaves[0], zones, fetch, cutoff) + CheckErrors(store, slaves[1..], zones, fetch, cutoff)
  }

  /** Reference definition: the ok messages of the whole check, slave by slave. */
  function CheckOks(store: Store, slaves: seq<string>, zones: seq<string>, fetch: Transport, cutoff: int): seq<string>
    requires Referenced(store, slaves, zones, cutoff)
  {
    if |slaves| == 0 then []
    else ZoneOks(store, slaves[0], zones, fetch, cutoff) + CheckOks(store, slaves[1..], zones, fetch, cutoff)
  }

  /** Check for one slave: every zone in turn, each judged against its reference in the unpruned store. */
  function CheckZones(store: Store, slave: string, zones: seq<string>, fetch: Transport, cutoff: int, results: Results): (r: Results)
    requires ReferencedFor(store, slave, zones, cutoff)
    ensures r == Results(results.error + ZoneErrors(store, slave, zones, fetch, cutoff), results.warn,
                         results.ok + ZoneOks(store, slave, zones, fetch, cutoff))
  {
    if |zones| == 0 then results
    else
      var mid := JudgePair(slave, zones[0], Reference(store, zones[0], slave, cutoff), fetch, results);
      var r := CheckZones(store, slave, zones[1..], fetch, cutoff, mid);
      var pe := PairErrors(slave, zones[0], Reference(store, zones[0], slave, cutoff), fetch);
      var po := PairOks(slave, zones[0], Reference(store, zones[0], slave, cutoff), fetch);
      AppendTwice(results.error, pe, ZoneErrors(store, slave, zones[1..], fetch, cutoff));
      AppendTwice(results.ok, po, ZoneOks(store, slave, zones[1..], fetch, cutoff));
      r
  }

  /** Check over every slave. */
  function CheckSlaves(store: Store, slaves: seq<string>, zones: seq<string>, fetch: Transport, cutoff: int, results: Results): (r: Results)
    requires Referenced(store, slaves, zones, cutoff)
    ensures r == Results(results.error + CheckErrors(store, slaves, zones, fetch, cutoff), results.warn,
                         results.ok + CheckOks(store, slaves, zones, fetch, cutoff))
  {
    if |slaves| == 0 then results
    else
      var mid := CheckZones(store, slaves[0], zones, fetch, cutoff, results);
      var r := CheckSlaves(store, slaves[1..], zones, fetch, cutoff, mid);
      AppendTwice(results.error, ZoneErrors(store, slaves[0], zones, fetch, cutoff), CheckErrors(store, slaves[1..], zones, fetch, cutoff));
      AppendTwice(results.ok, ZoneOks(store, slaves[0], zones, fetch, cutoff), CheckOks(store, slaves[1..], zones, fetch, cutoff));
      r
  }

  /**
   * `check`: judge every (slave, stored zone) pair against the master's
   * serial one grace window `delta` ago, all on the store as refresh left it,
   * and only then prune the rows older than two windows, sentinels excepted.
   * The lookup of a pair with no row before the cutoff fails in the source,
   * so every pair must have one.
   */
  function Check(store: Store, slaves: seq<string>, fetch: Transport, now: Clock, delta: int, results: Results): (r: Stage)
    requires Referenced(store, slaves, DistinctZones(store), now - delta)
    ensures r.results == Results(results.error + CheckErrors(store, slaves, DistinctZones(store), fetch, now - delta),
                                 results.warn,
                                 results.ok + CheckOks(store, slaves, DistinctZones(store), fetch, now - delta))
    ensures r.store == Prune(store, now - 2 * delta)
  {
    var zones := DistinctZones(store);
    var judged := CheckSlaves(store, slaves, zones, fetch, now - delta, results);
    Stage(Prune(store, now - 2 * delta), judged)
  }

  /** The pair is in tolerance: the slave answered, and did not serve a non-zero serial older than the reference. */
  predicate PairConverged(store: Store, slave: string, zone: string, fetch: Transport, cutoff: int)
    requires LatestBefore(store, zone, slave, cutoff).Some?
  {
    match Query(fetch, slave, zone)
    case None => false
    case Some(live) => !(0 < live < Reference(store, zone, slave, cutoff))
  }

  /** Every zone in `zones` is in tolerance for `slave`. */
  predicate ZoneConverged(store: Store, slave: string, zones: seq<string>, fetch: Transport, cutoff: int)
    requires ReferencedFor(store, slave, zones, cutoff)
  {
    |zones| == 0 ||
    (PairConverged(store, slave, zones[0], fetch, cutoff) && ZoneConverged(store, slave, zones[1..], fetch, cutoff))
  }

  /** Every pair is in tolerance. */
  predicate Converged(store: Store, slaves: seq<string>, zones: seq<string>, fetch: Transport, cutoff: int)
    requires Referenced(store, slaves, zones, cutoff)
  {
    |slaves| == 0 ||
    (ZoneConverged(store, slaves[0], zones, fetch, cutoff) && Converged(store, slaves[1..], zones, fetch, cutoff))
  }

  lemma {:induction false} ZoneConvergedMeans(store: Store, slave: string, zones: seq<string>, fetch: Transport, cutoff: int)
    requires ReferencedFor(store, slave, zones, cutoff)
    ensures ZoneConverged(store, slave, zones, fetch, cutoff) <==>
      forall zone :: zone in zones ==> PairConverged(store, slave, zone, fetch, cutoff)
  {
    if |zones| > 0 {
      ZoneConvergedMeans(store, slave, zones[1..], fetch, cutoff);
      assert forall z :: z in zones <==> z == zones[0] || z in zones[1..];
    }
  }

  /** Converged holds exactly when every configured slave is in tolerance for every listed zone. */
  lemma {:induction false} ConvergedMeans(store: Store, slaves: seq<string>, zones: seq<string>, fetch: Transport, cutoff: int)
    requires Referenced(store, slaves, zones, cutoff)
    ensures Converged(store, slaves, zones, fetch, cutoff) <==>
      forall slave, zone :: slave in slaves && zone in zones ==> PairConverged(store, slave, zone, fetch, cutoff)
  {
    if |slaves| > 0 {
      ConvergedMeans(store, slaves[1..], zones, fetch, cutoff);
      ZoneConvergedMeans(store, slaves[0], zones, fetch, cutoff);
      assert forall s :: s in slaves <==> s == slaves[0] || s in slaves[1..];
    }
  }

  lemma PairErrorsEmpty(store: Store, slave: string, zone: string, fetch: Transport, cutoff: int)
    requires LatestBefore(store, zone, slave, cutoff).Some?
    ensures PairErrors(slave, zone, Reference(store, zone, slave, cutoff), fetch) == [] <==> PairConverged(store, slave, zone, fetch, cutoff)
  {
  }

  lemma {:induction false} ZoneErrorsEmpty(store: Store, slave: string, zones: seq<string>, fetch: Transport, cutoff: int)
    requires ReferencedFor(store, slave, zones, cutoff)
    ensures ZoneErrors(store, slave, zones, fetch, cutoff) == [] <==> ZoneConverged(store, slave, zones, fetch, cutoff)
  {
    if |zones| > 0 {
      var rest := zones[1..];
      assert ReferencedFor(store, slave, rest, cutoff);
      ZoneErrorsEmpty(store, slave, rest, fetch, cutoff);
      PairErrorsEmpty(store, slave, zones[0], fetch, cutoff);
      var pe := PairErrors(slave, zones[0], Reference(store, zones[0], slave, cutoff), fetch);
      assert ZoneErrors(store, slave, zones, fetch, cutoff) == pe + ZoneErrors(store, slave, rest, fetch, cutoff);
    }
  }

  /**
   * The check adds no error exactly when every slave answered for every
   * zone and none served a non-zero serial older than its reference.
   */
  lemma {:induction false} CheckErrorsEmpty(store: Store, slaves: seq<string>, zones: seq<string>, fetch: Transport, cutoff: int)
    requires Referenced(store, slaves, zones, cutoff)
    ensures CheckErrors(store, slaves, zones, fetch, cutoff) == [] <==> Converged(store, slaves, zones, fetch, cutoff)
  {
    if |slaves| > 0 {
      var rest := slaves[1..];
      assert Referenced(store, rest, zones, cutoff);
      ZoneErrorsEmpty(store, slaves[0], zones, fetch, cutoff);
      CheckErrorsEmpty(store, rest, zones, fetch, cutoff);
      assert CheckErrors(store, slaves, zones, fetch, cutoff)
          == ZoneErrors(store, slaves[0], zones, fetch, cutoff) + CheckErrors(store, rest, zones, fetch, cutoff);
    }
  }
}

=== FILE: text.dfy ===
/**
 * The string operations the plugin relies on: Python's `str.split` on one
 * separator character, `str.join`, the `%i` decimal rendering of a serial or
 * a count, and a prefix test.
 */
module Text {

  /** `s` begins with `prefix`; for a prefix of length k this is Python's `s[0:k] == prefix`. */
  predicate StartsWith(s: string, prefix: string) {
    |prefix| <= |s| && s[..|prefix|] == prefix
  }

  /** Number of occurrences of `c` in `s`. */
  function Occurrences(s: string, c: char): nat {
    if |s| == 0 then 0 else (if s[0] == c then 1 else 0) + Occurrences(s[1..], c)
  }

  /** A character occurs a positive number of times exactly when it is in the text. */
  lemma {:induction false} OccurrencesPositive(s: string, c: char)
    ensures Occurrences(s, c) > 0 <==> c in s
  {
    if |s| > 0 {
      OccurrencesPositive(s[1..], c);
      assert c in s <==> s[0] == c || c in s[1..];
    }
  }

  /**
   * Python's `s.split(sep)` for a single separator character: the pieces
   * between separators, empty pieces included, so there is always one more
   * piece than there are separators (`"".split(",") == [""]`).
   */
  function Split(s: string, sep: char): (parts: seq<string>)
    ensures |parts| == Occurrences(s, sep) + 1
    ensures forall i :: 0 <= i < |parts| ==> sep !in parts[i]
  {
    if |s| == 0 then [""]
    else
      var rest := Split(s[1..], sep);
      if s[0] == sep then [""] + rest
      else [[s[0]] + rest[0]] + rest[1..]
  }

  /** Python's `sep.join(parts)`. */
  function Join(parts: seq<string>, sep: string): (r: string)
    ensures |parts| == 0 ==> r == ""
    ensures |parts| >= 1 ==> StartsWith(r, parts[0])
    ensures |parts| >= 2 ==> StartsWith(r[|parts[0]|..], sep)
  {
    if |parts| == 0 then ""
    else if |parts| == 1 then parts[0]
    else parts[0] + sep + Join(parts[1..], sep)
  }

  /** Joining the pieces of a split with the same separator gives the original text back. */
  lemma {:induction false} JoinSplit(s: string, sep: char)
    ensures Join(Split(s, sep), [sep]) == s
  {
    if |s| > 0 {
      var rest := Split(s[1..], sep);
      JoinSplit(s[1..], sep);
      if s[0] == sep {
        assert Split(s, sep) == [""] + rest;
        assert ([""] + rest)[1..] == rest;
        assert Join([""] + rest, [sep]) == "" + [sep] + Join(rest, [sep]);
      } else {
        assert Split(s, sep) == [[s[0]] + rest[0]] + rest[1..];
        JoinPrepend(s[0], rest, [sep]);
      }
      assert s == [s[0]] + s[1..];
    }
  }

  /** Prepending a character to the first piece prepends it to the join. */
  lemma JoinPrepend(c: char, parts: seq<string>, sep: string)
    requires |parts| >= 1
    ensures Join([[c] + parts[0]] + parts[1..], sep) == [c] + Join(parts, sep)
  {
    var q := [[c] + parts[0]] + parts[1..];
    assert q[1..] == parts[1..];
  }

  /** Splitting text that starts with a separator-free `p` glues `p` onto the first piece. */
  lemma {:induction false} SplitAfterPlainPrefix(p: string, t: string, sep: char)
    requires sep !in p
    ensures Split(p + t, sep) == [p + Split(t, sep)[0]] + Split(t, sep)[1..]
  {
    if |p| > 0 {
      SplitAfterPlainPrefix(p[1..], t, sep);
      assert (p + t)[1..] == p[1..] + t;
      assert (p + t)[0] == p[0];
      assert [p[0]] + (p[1..] + Split(t, sep)[0]) == p + Split(t, sep)[0];
    } else {
      var parts := Split(t, sep);
      assert p + t == t;
      assert p + parts[0] == parts[0];
      assert parts == [parts[0]] + parts[1..];
    }
  }

  /** Splitting a join of separator-free pieces gives the pieces back. */
  lemma {:induction false} SplitJoin(parts: seq<string>, sep: char)
    requires |parts| >= 1
    requires forall i :: 0 <= i < |parts| ==> sep !in parts[i]
    ensures Split(Join(parts, [sep]), sep) == parts
  {
    var p := parts[0];
    if |parts| == 1 {
      SplitAfterPlainPrefix(p, "", sep);
      assert p + "" == p;
    } else {
      var rest := parts[1..];
      var j := Join(rest, [sep]);
      SplitJoin(rest, sep);
      assert Join(parts, [sep]) == p + ([sep] + j);
      SplitAfterPlainPrefix(p, [sep] + j, sep);
      assert ([sep] + j)[1..] == j;
      assert Split([sep] + j, sep) == [""] + rest;
      assert p + "" == p;
      assert parts == [p] + rest;
    }
  }

  /** Splitting at a last separator: the text after it becomes the final piece. */
  lemma {:induction false} SplitAtLast(a: string, b: string, sep: char)
    requires sep !in b
    ensures Split(a + [sep] + b, sep) == Split(a, sep) + [b]
  {
    if |a| == 0 {
      assert a + [sep] + b == [sep] + b;
      assert ([sep] + b)[1..] == b;
      SplitAfterPlainPrefix(b, "", sep);
      assert b + "" == b;
    } else {
      SplitAtLast(a[1..], b, sep);
      assert (a + [sep] + b)[1..] == a[1..] + [sep] + b;
      assert (a + [sep] + b)[0] == a[0];
      var rest := Split(a[1..], sep);
      assert (rest + [b])[0] == rest[0];
      assert (rest + [b])[1..] == rest[1..] + [b];
    }
  }

  predicate IsDigit(c: char) {
    '0' <= c <= '9'
  }

  function DigitChar(d: nat): (c: char)
    requires d < 10
  {
    ('0' as int + d) as char
  }

  function DigitValue(c: char): nat
    requires IsDigit(c)
  {
    c as int - '0' as int
  }

  /** Python's `'%i' % n` for a non-negative integer: its decimal digits, most significant first. */
  function NatToString(n: nat): (s: string)
    ensures |s| >= 1
    ensures forall i :: 0 <= i < |s| ==> IsDigit(s[i])
    ensures s[0] == '0' ==> n == 0
  {
    if n < 10 then [DigitChar(n)] else NatToString(n / 10) + [DigitChar(n % 10)]
  }

  /** The value of a string of decimal digits. */
  function ParseDecimal(s: string): nat
    requires forall i :: 0 <= i < |s| ==> IsDigit(s[i])
  {
    if |s| == 0 then 0 else 10 * ParseDecimal(s[..|s| - 1]) + DigitValue(s[|s| - 1])
  }

  /** The decimal rendering loses nothing: reading the digits back gives the number. */
  lemma {:induction false} ParseNatToString(n: nat)
    ensures ParseDecimal(NatToString(n)) == n
  {
    var s := NatToString(n);
    if n < 10 {
      assert s[..0] == [];
    } else {
      ParseNatToString(n / 10);
      assert s[..|s| - 1] == NatToString(n / 10);
    }
  }

  /** Distinct numbers render differently, so a message names its serials unambiguously. */
  lemma NatToStringInjective(m: nat, n: nat)
    requires NatToString(m) == NatToString(n)
    ensures m == n
  {
    ParseNatToString(m);
    ParseNatToString(n);
  }
}

=== FILE: wrappers.dfy ===
/** The optional-value datatype used throughout the model. */
module Wrappers {

  /** A value that may be absent: a lookup that found no row, a reply without a usable answer. */
  datatype Option<+T> = None | Some(value: T)
}
